=== FILE: README.md ===
# gainz valuation core in Dafny

`gainz.rb` is a command-line tracker for cryptocurrency holdings. It prices
users' holdings against CryptoCompare quotes and prints two reports: one
user's portfolio, and a leaderboard of all users. This project models the part
that computes those reports, as pure Dafny functions over sequences, maps and
reals, and proves what each step promises:

- **Text** (`text.dfy`): comma joining of symbol lists and its inverse.
- **Chunking** (`chunking.dfy`): the greedy batcher. It cuts the symbol list
  into consecutive chunks whose comma-joined length fits the historical
  endpoint's 30-character limit.
- **Quotes** (`quotes.dfy`): one quote request. This covers the `ts` timestamp,
  the request path and query, and the reading of the JSON body into a
  conversion map, where every positive price is inverted and anything else
  becomes 0.
- **Conversions** (`conversions.dfy`): `get_conversions`. Historical maps are
  fetched per chunk and merged with later maps winning. The current map comes
  from one request. An optional filter drops zero historical rates.
- **Change** (`change.dfy`): percent change.
- **Holdings**, **Ranking** (`holdings.dfy`, `ranking.dfy`): valuing holdings,
  summing them, and the descending sort.
- **Portfolio** (`portfolio.dfy`): the portfolio valuation. It builds
  per-symbol changes and per-row values, drops rows with a zero historical
  value, computes both totals, and sorts the displayed lines.
- **Leaderboard** (`leaderboard.dfy`): keeps holdings whose symbol has a
  current rate, groups them by user, totals each user, and ranks users by
  current total.

The quote service is a parameter `Request -> Json`, a function from a request
to the parsed response body. The clock is a parameter `now`. The URL encoder
is a parameter of `Url`. A Ruby exception in the core (for example `nil * amount`,
`price > 0` on a non-number, or `nil.zip`) becomes a `Failure` value of a
`Result`. Inputs that make the source raise are modelled, not excluded by
preconditions.

Where the program's documented intent and its code differ, the model follows
the code:

- `get_percent_change` has no zero guard of its own. The portfolio's
  per-symbol changes guard it, and the totals do not.
- A request is sent for the chunk even when the symbol list is empty, because
  the batcher always returns at least one chunk.
- Ruby's `sort_by` is not stable. So the sort is specified only as a
  non-increasing rearrangement, and ties may come out in any order.

There is one exception. The portfolio reports (`Portfolio.ValuationReport`
and `Portfolio.PortfolioReport`) use the corrected labelling of
`Portfolio.ValuePortfolio`. The code as written can show a value against the
wrong symbol; `Portfolio.ValuePortfolioAsWritten` models it, and "## Findings"
describes the discrepancy.

## Model

| member | source | states |
|---|---|---|
| Text.SplitJoin | gainz.rb:92 | splitting the comma-joined list of comma-free symbols at commas gives back the list |
| Text.JoinSplit | gainz.rb:92 | joining the fields of any string split at commas gives back the string |
| Chunking.JoinAppendLength | gainz.rb:124-130 | joining one more symbol onto a chunk is as long as the chunk's tracked length (joined length plus one for the comma) plus the symbol, so the test `current_length + symbol.length > 30` means "the joined list would exceed 30 characters" |
| Chunking.Chunks | gainz.rb:118-133 | the batcher returns at least one chunk, even for no symbols |
| Chunking.ScanAllInvariant | gainz.rb:118-133 | after each loop iteration the loop state concatenates to the symbols read so far, the tracked length is the open chunk's width, every closed chunk is maximal, and when every symbol fits alone every chunk fits and no closed chunk is empty |
| Chunking.ChunksFlatten | gainz.rb:110-134 | the chunks concatenated in order are exactly the input symbols, so nothing is lost, duplicated or reordered |
| Chunking.ChunksFit | gainz.rb:110-134 | when every symbol is at most 30 characters, every chunk's comma-joined list is at most 30 characters |
| Chunking.ChunksMaximal | gainz.rb:124-128 | a chunk is closed only when adding the next chunk's first symbol would push its joined list past 30 characters |
| Chunking.ChunksNonEmpty | gainz.rb:118-133 | no symbols give one empty chunk, and when every symbol fits no chunk is empty |
| Chunking.TenFiveCharSymbols | gainz.rb:124-130 | ten five-character symbols split five and five (29 characters joined, the sixth would make 35) |
| Chunking.ThreeShortSymbols | gainz.rb:118-133 | BTC, ETH and LTC share one chunk |
| Quotes.ToTimestamp | gainz.rb:84-86 | a timestamp exists exactly when a duration is given; it lies at least an hour before `now`, a whole number of hours back; hour, day, week, month and year reach back 3600, 86400, 604800, 2592000 and 31536000 seconds (a month is 30 days, a year 365) |
| Quotes.Params | gainz.rb:90-94 | the query holds `fsym` as the target currency, `tsyms` as the joined symbols, and `ts` exactly when a timestamp is given, and no other parameter |
| Quotes.ApiRequest | gainz.rb:88-94 | the historical path is used exactly when a duration is given, otherwise the default path; `fsym` is the target currency; `tsyms` is the comma-joined symbol list, even when it is empty; `ts` is present exactly in historical mode and equals `now` minus the window; no other parameter is sent |
| Quotes.RequestListsSymbols | gainz.rb:88-94 | for a non-empty list of comma-free symbols, the `tsyms` value reads back, split at commas, as the requested symbols |
| Quotes.Url | gainz.rb:95 | the URL starts with the API root, the path and `?` |
| Quotes.Invert | gainz.rb:104 | a positive price becomes its reciprocal (positive, and times the price is 1); a zero or negative price becomes 0; the result is never negative |
| Quotes.QuoteData | gainz.rb:102 | in current mode the body must be an object, and its table is the body itself; in historical mode it must be an object holding an object under the target currency, and that inner object is the table; a missing currency key is the MissingCurrency error |
| Quotes.ResolveRates | gainz.rb:103-107 | the map succeeds exactly when every price is a number, has exactly the data's symbols, and holds the inverse of each positive price and 0 for the rest |
| Quotes.Convert | gainz.rb:98-108 | a request succeeds exactly when the body has the expected shape and only numeric prices; the map then has exactly the quoted symbols, and each rate is the inverse of its quoted price (0 for a price that is not positive) |
| Conversions.MergeAll | gainz.rb:139 | the merged map's keys are the union of the chunk maps' keys; each key takes the value of the last map that binds it; non-negative maps merge to a non-negative map |
| Conversions.MergeDisjoint | gainz.rb:139 | with pairwise disjoint chunk maps every binding of every chunk survives the merge |
| Conversions.MapChunks | gainz.rb:137-138 | mapping a raising conversion over the chunks gives one result per chunk, in order, or the error of the first chunk that fails, every earlier chunk having succeeded |
| Conversions.ConvertChunks | gainz.rb:136-138 | one request per chunk in historical mode; on success the i-th map is the i-th chunk's conversion; on failure the error is the first failing chunk's own error |
| Conversions.FilterMissingValues | gainz.rb:152-166 | the historical map keeps exactly the non-zero rates, unchanged; the current map keeps exactly the symbols that still have a historical rate, unchanged |
| Conversions.FilterLeavesUsableRates | gainz.rb:152-166 | after filtering every current symbol has a non-zero historical rate |
| Conversions.FilterIdempotent | gainz.rb:152-166 | filtering twice is filtering once |
| Conversions.FilterKeepsPositive | gainz.rb:152-166 | on non-negative rates the filter leaves only positive historical rates, and the current keys are a subset of the historical keys |
| Conversions.GetConversions | gainz.rb:136-150 | success exactly when every chunk request and the current request succeed; a failure carries the first failing chunk's error, or else the current request's error, since the chunks are requested first; the result is then the unchunked current map paired with the merge of the chunk maps, passed through the filter when it is on; both maps are non-negative; without the filter the historical keys are the union over the chunk results; with the filter the current keys are covered by the historical keys, whose rates are all positive |
| Conversions.ChunkResultsCoverSymbols | gainz.rb:136-139 | against a service that prices exactly the symbols it is asked for, and for symbols that are non-empty and comma-free, every chunk request succeeds and the chunk results together price exactly the requested symbols |
| Conversions.UnitServiceIsComplete | gainz.rb:88-108 | a service quoting each symbol listed in `tsyms` at 1 prices exactly the requested symbols in both modes, for every list of non-empty, comma-free symbols, so such services exist |
| Conversions.CompleteServicePricesEverySymbol | gainz.rb:136-150 | against such a service, for non-empty comma-free symbols, the unfiltered conversions succeed and both maps have exactly the requested symbols as keys, so chunking loses nothing |
| Ranking.Insert | gainz.rb:344 | inserting into a non-increasing sequence keeps it non-increasing and adds exactly that element |
| Ranking.SortDescending | gainz.rb:344 | the sort is a rearrangement (same multiset) into non-increasing key order |
| Ranking.SortSum | gainz.rb:338-344 | sorting does not change a column's sum |
| Ranking.SortDistinct | gainz.rb:444 | sorting keeps distinct elements distinct |
| Change.PercentChange | gainz.rb:209-213 | the change times the baseline is the difference times 100, and for a positive baseline its sign is the sign of the difference |
| Change.PercentChangeExamples | gainz.rb:209-213 | 100 to 150 is +50, 100 to 50 is -50, and no change is 0 |
| Change.TotalChange | gainz.rb:346 | a change exists exactly when the baseline is non-zero, and it is then the percent change |
| Holdings.Worth | gainz.rb:338 | the sum of amount times rate is non-negative under non-negative rates and positive amounts |
| Holdings.WorthPositive | gainz.rb:338 | one non-zero value among positive amounts at non-negative rates makes the sum positive |
| Portfolio.SymbolChange | gainz.rb:314-323 | a zero historical rate gives 0.0; otherwise both rates must exist and the change is their percent change; a missing rate is the MissingRate error |
| Portfolio.Changes | gainz.rb:313-325 | the change map has exactly the listed symbols, each with its own symbol's change, and fails exactly when some symbol's change fails |
| Portfolio.RawValues | gainz.rb:327-332 | value pairs exist exactly when every row's symbol has both rates; the i-th pair is the i-th row's current and historical value |
| Portfolio.KeepNonZero | gainz.rb:334-335 | keeps exactly the pairs with a non-zero historical value, each as many times as it occurs |
| Portfolio.Valued | gainz.rb:334-335 | keeps exactly the rows with a non-zero historical value, each as many times as it occurs |
| Portfolio.KeptPairsAreValuedRows | gainz.rb:327-336 | the kept value pairs are, position by position, the value pairs of the kept rows |
| Portfolio.ValuePortfolioAsWritten | gainz.rb:327-344 | the block as written: success exactly when all rates resolve and some row is kept; the lines are the kept values zipped by position against all rows, dropped ones included, in non-increasing value order; both totals are the values of the kept rows |
| Portfolio.ValuePortfolio | gainz.rb:327-344 | the corrected block: MissingRate when a rate is missing, NothingValued when every row is dropped; otherwise the lines are exactly the kept rows, each with its own current value, in non-increasing order; the total is the sum of the lines; the historical total is the kept rows' historical worth |
| Portfolio.LinesAreValuedHoldings | gainz.rb:338-344 | every displayed line is a held row with a non-zero historical value, shown with its own current rate times its amount |
| Portfolio.HistoricalTotalPositive | gainz.rb:336-346 | with positive amounts and non-negative rates the historical total is positive, so the total change has a non-zero baseline |
| Portfolio.DropExample | gainz.rb:334-344 | a holding with a zero historical rate is dropped from the lines and from both totals |
| Portfolio.AsWrittenAgreesWhenNothingDropped | gainz.rb:340-344 | when no row is dropped the block as written and the corrected block agree |
| Portfolio.AsWrittenMislabels | gainz.rb:340-344 | a dropped row before a kept one makes the block as written show the kept value against the dropped row |
| Portfolio.ValuationReport | gainz.rb:313-346 | succeeds exactly when every rate resolves and some row is kept; fails with MissingRate when a rate is missing and NothingValued when every row is dropped; the changes cover exactly the held symbols, each with its own symbol's change; the valuation is the corrected valuation block and the total change is the percent change of its two totals; with positive amounts and non-negative rates the historical total is positive and the total change exists |
| Portfolio.PortfolioReport | gainz.rb:305-346 | a quote failure aborts the command; otherwise the report is the valuation report on the fetched maps, and its failure aborts with that error (so a missing rate aborts); with positive amounts a report always has a total change |
| Leaderboard.KeepValid | gainz.rb:418-429 | keeps exactly the holdings whose symbol has a current rate, each as many times as it occurs |
| Leaderboard.Users | gainz.rb:431 | the groups' keys are exactly the users that own a holding, each once |
| Leaderboard.RowsOf | gainz.rb:431 | a user's group is exactly that user's holdings, each as many times as it occurs |
| Leaderboard.UserTotals | gainz.rb:432-443 | one entry per grouping key, in group order, with the totals of that user's holdings under each map; both columns add up to the total of all rows, so grouping loses and double-counts nothing |
| Leaderboard.Rank | gainz.rb:444-458 | the standings rearrange the user totals in non-increasing order of current total, rank i+1 at position i, each with its own totals' change |
| Leaderboard.Leaderboard | gainz.rb:418-458 | ranks run 1, 2, 3...; totals do not increase down the list; users are distinct; the users are exactly the owners of a holding whose symbol has a current rate; each user's totals are the sums over their kept holdings |
| Leaderboard.GroupTotalIsWorth | gainz.rb:434-436 | a user's total, folded over their rows, is the worth of their holdings: the same sum of rate times amount the portfolio takes |
| Leaderboard.GroupingPreservesTotal | gainz.rb:431-443 | grouping by user loses and double-counts nothing: the users' totals add up to the total of all holdings |
| Leaderboard.LeaderboardSums | gainz.rb:418-444 | the leaderboard's current and historical columns add up to the value of every kept holding |
| Leaderboard.EveryStandingHasChange | gainz.rb:457-458 | with positive amounts and filtered (positive) historical rates, every user's baseline is positive and every change exists |
| Leaderboard.LeaderboardReport | gainz.rb:404-458 | no tracked symbol aborts; a quote failure aborts with its error; otherwise the report is the leaderboard of the rows under the filtered conversions, which cover every current symbol with a historical rate |
| Leaderboard.ReportedStandingsHaveChanges | gainz.rb:411-458 | with positive amounts every ranked user of a produced leaderboard has a change |

## Left out

- HTTP, `open(url).read` and `JSON.parse` are not modelled. The service is a function from the request to the parsed body. JSON arrays, strings, booleans and null are one `Other` case.
- Quotes.QuoteData: refuses every array body. The source's `data.map do |(symbol, price)|` also destructures the elements of an array, and `Hash[...]` builds a map from the pairs. So the source reads `[]` as no rates and `[["BTC", 2.0]]` as a BTC rate of 0.5, where the model reports NotAnObject.
- The URL form encoding (`URI.encode_www_form`) is an abstract parameter of `Quotes.Url`.
- `Time.now` is the parameter `now`. The source reads the clock once per request. The model uses one instant for every request of a command.
- SQLite is not modelled. This covers the holdings and crypto queries, user lookup, the "no user data" abort (which counts the users table), and the `IN (...)` clause. Holdings arrive as a sequence of rows; the `IN` filter is applied in memory as `Leaderboard.KeepValid`.
- Command-line parsing is not modelled: the option parser, currency and username regexes, and the `:day` default duration.
- Table formatting and printing are not modelled: `format_headers`, `format_percent`, `add_trailing_zeros` and `round`.
- Quotes.Invert: real division is used; the source's `1 / price` is Ruby Integer division when the JSON price is an integer, so an integral price of 2 would give 0 there.
- Change.PercentChange: requires a non-zero baseline and does not round to two places. The source's `fdiv` gives Infinity or NaN on a zero baseline; the callers that can see one use `Change.TotalChange`, which returns `None` there.
- Change.TotalChange: returns `None` where the source would print a non-finite float.
- All arithmetic is over exact reals, not IEEE doubles. So sums are associative here and rounding error is not modelled.
- Leaderboard.Leaderboard: requires that every symbol with a current rate has a historical rate. The filtered conversions guarantee this, and it is the only way the source calls that block. Without it, the source's `nil * amount` would raise.
- Conversions.ChunkResultsCoverSymbols: states coverage only for symbols that are non-empty and comma-free. An empty symbol or a comma inside one changes how `tsyms` splits back at the service: `[]` and `[""]` send the same request.
- Leaderboard.LeaderboardReport: user names from the LEFT OUTER JOIN are never `nil` in the model.

## Findings

| source | as written | input that shows it | evidently intended | confidence | as-written member | corrected member |
|---|---|---|---|---|---|---|
| gainz.rb:340-342 | the kept values (after dropping rows with a zero historical value) are zipped by position with all rows of `result` | rows XYZ 1 and BTC 1, current rates BTC 100 and XYZ 5, historical BTC 80 and XYZ 0: the only line shows the value 100 against XYZ | each kept value is shown with its own row | not executed | Portfolio.ValuePortfolioAsWritten (counterexample Portfolio.AsWrittenMislabels) | Portfolio.ValuePortfolio |

=== FILE: change.dfy ===
/** `get_percent_change` (gainz.rb:209-213) over idealised real arithmetic. */
module Change {
  import opened Wrappers

  /** The signed change from `past` to `current`, in percent of `past`. The
      source has no guard of its own: its callers make sure `past` is not 0. */
  function PercentChange(current: real, past: real): (r: real)
    requires past != 0.0
    ensures r * past == (current - past) * 100.0
    ensures past > 0.0 ==> (r > 0.0 <==> current > past)
    ensures past > 0.0 ==> (r == 0.0 <==> current == past)
    ensures past > 0.0 ==> (r < 0.0 <==> current < past)
  {
    (current - past) / past * 100.0
  }

  lemma PercentChangeExamples()
    ensures PercentChange(150.0, 100.0) == 50.0
    ensures PercentChange(50.0, 100.0) == -50.0
    ensures PercentChange(80.0, 80.0) == 0.0
  {
  }

  /** The change of a total whose baseline may be 0: the source would divide
      by zero and print a non-finite float, which is `None` here. */
  function TotalChange(current: real, past: real): (r: Option<real>)
    ensures r.Some? <==> past != 0.0
    ensures r.Some? ==> r.value * past == (current - past) * 100.0
  {
    if past == 0.0 then None else Some(PercentChange(current, past))
  }
}

=== FILE: chunking.dfy ===
/** The greedy batcher `get_historical_currency_chunks` (gainz.rb:110-134):
    the historical price endpoint accepts at most 30 characters of
    comma-joined symbols, so the symbol list is cut into consecutive chunks,
    each as long as fits. */
module Chunking {
  import opened Text

  /** The quote API's limit on the joined symbol list of a historical request. */
  const MaxJoinedLength: nat := 30

  /** The source's `current_length` for a chunk: each symbol's length plus one comma. */
  function Width(chunk: seq<string>): (r: nat)
    ensures |chunk| > 0 ==> r == |Join(chunk, Comma)| + 1
    ensures |chunk| == 0 ==> r == 0
  {
    if |chunk| == 0 then 0 else Width(chunk[..|chunk| - 1]) + |chunk[|chunk| - 1]| + 1
  }

  /** The loop state after some symbols: finished chunks, the open chunk and its width. */
  datatype Scan = Scan(closed: seq<seq<string>>, current: seq<string>, currentLength: nat)

  /** One iteration of the loop body (gainz.rb:123-131). */
  function Step(st: Scan, symbol: string): Scan
  {
    if st.currentLength + |symbol| > MaxJoinedLength then
      Scan(st.closed + [st.current], [symbol], |symbol| + 1)
    else
      Scan(st.closed, st.current + [symbol], st.currentLength + |symbol| + 1)
  }

  /** The loop state once the first |symbols| symbols have been read. */
  function ScanAll(symbols: seq<string>): Scan
  {
    if |symbols| == 0 then Scan([], [], 0)
    else Step(ScanAll(symbols[..|symbols| - 1]), symbols[|symbols| - 1])
  }

  /** `get_historical_currency_chunks`: the finished chunks plus the open one. */
  function Chunks(symbols: seq<string>): (r: seq<seq<string>>)
    ensures |r| >= 1
  {
    var st := ScanAll(symbols);
    st.closed + [st.current]
  }

  /** The chunks concatenated in order. */
  function Flatten(chunks: seq<seq<string>>): seq<string>
  {
    if |chunks| == 0 then [] else Flatten(chunks[..|chunks| - 1]) + chunks[|chunks| - 1]
  }

  /** Every symbol would fit in a request on its own. */
  predicate AllFit(symbols: seq<string>)
  {
    forall i :: 0 <= i < |symbols| ==> |symbols[i]| <= MaxJoinedLength
  }

  /** Chunk k is closed only because the first symbol of chunk k + 1 did not fit. */
  predicate Maximal(chunks: seq<seq<string>>, k: int)
    requires 0 <= k < |chunks| - 1
  {
    |chunks[k + 1]| > 0 && |Join(chunks[k] + [chunks[k + 1][0]], Comma)| > MaxJoinedLength
  }

  /** Appending a symbol to a chunk gives a join as long as the chunk's width plus the symbol. */
  lemma JoinAppendLength(chunk: seq<string>, symbol: string)
    ensures |Join(chunk + [symbol], Comma)| == Width(chunk) + |symbol|
  {
    var c := chunk + [symbol];
    assert c[..|c| - 1] == chunk;
  }

  lemma FlattenSnoc(chunks: seq<seq<string>>, c: seq<string>)
    ensures Flatten(chunks + [c]) == Flatten(chunks) + c
  {
    assert (chunks + [c])[..|chunks|] == chunks;
  }

  /** What holds of the loop state after every iteration. */
  ghost predicate ScanInvariant(symbols: seq<string>, st: Scan)
  {
    var all := st.closed + [st.current];
    && Flatten(all) == symbols
    && st.currentLength == Width(st.current)
    && (|symbols| > 0 ==> |st.current| > 0)
    && (forall k :: 0 <= k < |st.closed| ==> Maximal(all, k))
    && (AllFit(symbols) ==>
          && (forall k :: 0 <= k < |all| ==> Width(all[k]) <= MaxJoinedLength + 1)
          && (forall k :: 0 <= k < |st.closed| ==> |st.closed[k]| > 0))
  }

  /** Closing a chunk because `x` overflows it keeps every closed chunk maximal. */
  lemma CloseKeepsMaximal(closed: seq<seq<string>>, current: seq<string>, x: string)
    requires forall k :: 0 <= k < |closed| ==> Maximal(closed + [current], k)
    requires |Join(current + [x], Comma)| > MaxJoinedLength
    ensures forall k :: 0 <= k < |closed| + 1 ==> Maximal(closed + [current] + [[x]], k)
  {
    var all := closed + [current];
    var all' := all + [[x]];
    assert all'[|closed|] == current && all'[|closed| + 1] == [x];
    forall k | 0 <= k < |closed| ensures Maximal(all', k) {
      assert all'[k] == all[k] && all'[k + 1] == all[k + 1];
      assert Maximal(all, k);
    }
  }

  /** Closing a chunk keeps every chunk within the limit when `x` fits alone. */
  lemma CloseKeepsFit(all: seq<seq<string>>, x: string)
    requires forall k :: 0 <= k < |all| ==> Width(all[k]) <= MaxJoinedLength + 1
    requires |x| <= MaxJoinedLength
    ensures forall k :: 0 <= k < |all| + 1 ==> Width((all + [[x]])[k]) <= MaxJoinedLength + 1
  {
    assert Width([x]) == Width([]) + |x| + 1;
    forall k | 0 <= k < |all| + 1 ensures Width((all + [[x]])[k]) <= MaxJoinedLength + 1 {
      if k < |all| {
        assert (all + [[x]])[k] == all[k];
      }
    }
  }

  /** The closed chunks stay nonempty when a nonempty chunk is closed. */
  lemma CloseKeepsNonEmpty(closed: seq<seq<string>>, current: seq<string>)
    requires forall k :: 0 <= k < |closed| ==> |closed[k]| > 0
    requires |current| > 0
    ensures forall k :: 0 <= k < |closed| + 1 ==> |(closed + [current])[k]| > 0
  {
    forall k | 0 <= k < |closed| + 1 ensures |(closed + [current])[k]| > 0 {
      if k < |closed| {
        assert (closed + [current])[k] == closed[k];
      }
    }
  }

  /** Every symbol of `pre + [x]` fits alone only if those of `pre` and `x` do. */
  lemma AllFitSnoc(pre: seq<string>, x: string)
    requires AllFit(pre + [x])
    ensures AllFit(pre) && |x| <= MaxJoinedLength
  {
    var symbols := pre + [x];
    forall i | 0 <= i < |pre| ensures |pre[i]| <= MaxJoinedLength {
      assert pre[i] == symbols[i];
    }
    assert x == symbols[|pre|];
  }

  /** Closing the open chunk keeps the invariant. */
  lemma {:induction false} StepClose(pre: seq<string>, st: Scan, x: string)
    requires ScanInvariant(pre, st)
    requires st.currentLength + |x| > MaxJoinedLength
    ensures ScanInvariant(pre + [x], Step(st, x))
  {
    var symbols := pre + [x];
    var all := st.closed + [st.current];
    var st' := Step(st, x);
    assert st'.closed + [st'.current] == all + [[x]];
    FlattenSnoc(all, [x]);
    JoinAppendLength(st.current, x);
    CloseKeepsMaximal(st.closed, st.current, x);
    if AllFit(symbols) {
      AllFitSnoc(pre, x);
      CloseKeepsFit(all, x);
      assert |pre| > 0;
      CloseKeepsNonEmpty(st.closed, st.current);
    }
  }

  /** Adding the symbol to the open chunk keeps the invariant. */
  lemma {:induction false} StepAppend(pre: seq<string>, st: Scan, x: string)
    requires ScanInvariant(pre, st)
    requires st.currentLength + |x| <= MaxJoinedLength
    ensures ScanInvariant(pre + [x], Step(st, x))
  {
    var symbols := pre + [x];
    var all := st.closed + [st.current];
    var st' := Step(st, x);
    var all' := st'.closed + [st'.current];
    FlattenSnoc(st.closed, st.current);
    FlattenSnoc(st.closed, st.current + [x]);
    assert (st.current + [x])[..|st.current|] == st.current;
    forall k | 0 <= k < |st'.closed| ensures Maximal(all', k) {
      assert Maximal(all, k);
      assert all'[k] == all[k];
      if k + 1 < |st.closed| {
        assert all'[k + 1] == all[k + 1];
      } else {
        assert all'[k + 1] == st.current + [x];
      }
    }
    if AllFit(symbols) {
      AllFitSnoc(pre, x);
      forall k | 0 <= k < |all'| ensures Width(all'[k]) <= MaxJoinedLength + 1 {
        if k < |st.closed| {
          assert all'[k] == all[k];
        }
      }
    }
  }

  lemma {:induction false} ScanAllInvariant(symbols: seq<string>)
    ensures ScanInvariant(symbols, ScanAll(symbols))
  {
    if |symbols| == 0 {
      assert Flatten([[]]) == Flatten([]) + [];
    } else {
      var pre := symbols[..|symbols| - 1];
      var x := symbols[|symbols| - 1];
      assert pre + [x] == symbols;
      ScanAllInvariant(pre);
      var st := ScanAll(pre);
      if st.currentLength + |x| > MaxJoinedLength {
        StepClose(pre, st, x);
      } else {
        StepAppend(pre, st, x);
      }
    }
  }

  /** Chunking loses, duplicates and reorders nothing. */
  lemma ChunksFlatten(symbols: seq<string>)
    ensures Flatten(Chunks(symbols)) == symbols
  {
    ScanAllInvariant(symbols);
  }

  /** When every symbol fits on its own, every chunk's joined list respects the limit. */
  lemma ChunksFit(symbols: seq<string>)
    requires AllFit(symbols)
    ensures forall k :: 0 <= k < |Chunks(symbols)| ==> |Join(Chunks(symbols)[k], Comma)| <= MaxJoinedLength
  {
    ScanAllInvariant(symbols);
    var cs := Chunks(symbols);
    forall k | 0 <= k < |cs| ensures |Join(cs[k], Comma)| <= MaxJoinedLength {
      assert Width(cs[k]) <= MaxJoinedLength + 1;
    }
  }

  /** Greedy: every chunk but the last was closed only because the next symbol would not fit. */
  lemma ChunksMaximal(symbols: seq<string>)
    ensures forall k :: 0 <= k < |Chunks(symbols)| - 1 ==> Maximal(Chunks(symbols), k)
  {
    ScanAllInvariant(symbols);
  }

  /** No input yields the single empty chunk; otherwise, when every symbol fits, no chunk is empty. */
  lemma ChunksNonEmpty(symbols: seq<string>)
    ensures symbols == [] ==> Chunks(symbols) == [[]]
    ensures symbols != [] && AllFit(symbols) ==>
              forall k :: 0 <= k < |Chunks(symbols)| ==> |Chunks(symbols)[k]| > 0
  {
    ScanAllInvariant(symbols);
  }

  lemma ScanAllSnoc(pre: seq<string>, x: string)
    ensures ScanAll(pre + [x]) == Step(ScanAll(pre), x)
  {
    assert (pre + [x])[..|pre|] == pre;
  }

  /** The loop state after the first k of ten five-character symbols. */
  function FiveCharScan(symbols: seq<string>, k: nat): Scan
    requires |symbols| == 10 && k <= 10
  {
    if k <= 5 then Scan([], symbols[..k], 6 * k)
    else Scan([symbols[..5]], symbols[5..k], 6 * (k - 5))
  }

  lemma FiveCharStep(symbols: seq<string>, k: nat)
    requires |symbols| == 10 && 0 < k <= 10
    requires forall i :: 0 <= i < |symbols| ==> |symbols[i]| == 5
    requires ScanAll(symbols[..k - 1]) == FiveCharScan(symbols, k - 1)
    ensures ScanAll(symbols[..k]) == FiveCharScan(symbols, k)
  {
    var pre := symbols[..k - 1];
    var x := symbols[k - 1];
    assert symbols[..k] == pre + [x];
    ScanAllSnoc(pre, x);
    if k > 6 {
      assert symbols[5..k] == symbols[5..k - 1] + [x];
    }
  }

  lemma {:induction false} ScanFiveCharSymbols(symbols: seq<string>, k: nat)
    requires |symbols| == 10 && k <= 10
    requires forall i :: 0 <= i < |symbols| ==> |symbols[i]| == 5
    ensures ScanAll(symbols[..k]) == FiveCharScan(symbols, k)
  {
    if k > 0 {
      ScanFiveCharSymbols(symbols, k - 1);
      FiveCharStep(symbols, k);
    }
  }

  /** Ten five-character symbols: five of them join to exactly 29 characters
      with a width of 30, so the sixth opens a second chunk. */
  lemma TenFiveCharSymbols(symbols: seq<string>)
    requires |symbols| == 10
    requires forall i :: 0 <= i < |symbols| ==> |symbols[i]| == 5
    ensures Chunks(symbols) == [symbols[..5], symbols[5..]]
  {
    ScanFiveCharSymbols(symbols, 10);
    assert symbols[..10] == symbols;
  }

  /** Three short symbols share one chunk. */
  lemma ThreeShortSymbols()
    ensures Chunks(["BTC", "ETH", "LTC"]) == [["BTC", "ETH", "LTC"]]
  {
    ScanAllSnoc([], "BTC");
    assert [] + ["BTC"] == ["BTC"];
    ScanAllSnoc(["BTC"], "ETH");
    assert ["BTC"] + ["ETH"] == ["BTC", "ETH"];
    ScanAllSnoc(["BTC", "ETH"], "LTC");
    assert ["BTC", "ETH"] + ["LTC"] == ["BTC", "ETH", "LTC"];
  }
}

=== FILE: conversions.dfy ===
/** `get_conversions` and `filter_missing_values` (gainz.rb:136-166): the
    historical map is fetched chunk by chunk and merged, the current map in a
    single request, and the optional filter drops unusable historical rates. */
module Conversions {
  import opened Wrappers
  import opened Text
  import opened Chunking
  import opened Quotes

  /** The pair `[current_conversions, historical_conversions]`. */
  datatype Conversions = Conversions(current: Rates, historical: Rates)

  /** Map `i` holds the last binding of `k` among `maps`. */
  predicate LastBinding(maps: seq<Rates>, i: int, k: Symbol)
    requires 0 <= i < |maps|
  {
    k in maps[i] && forall j :: i < j < |maps| ==> k !in maps[j]
  }

  /** `reduce({}) { |acc, m| acc.merge(m) }`: the union of the maps, where a
      later map's binding wins over an earlier one. */
  function MergeAll(maps: seq<Rates>): (r: Rates)
    ensures forall k :: k in r <==> exists i :: 0 <= i < |maps| && k in maps[i]
    ensures forall i, k :: 0 <= i < |maps| && LastBinding(maps, i, k) ==> r[k] == maps[i][k]
    ensures (forall i :: 0 <= i < |maps| ==> NonNegative(maps[i])) ==> NonNegative(r)
  {
    if |maps| == 0 then map[]
    else
      var init := maps[..|maps| - 1];
      var acc := MergeAll(init);
      MergeStep(maps, acc);
      acc + maps[|maps| - 1]
  }

  /** One step of the fold, given what holds of the merge of all maps but the last. */
  lemma MergeStep(maps: seq<Rates>, acc: Rates)
    requires |maps| > 0
    requires forall k :: k in acc <==> exists i :: 0 <= i < |maps| - 1 && k in maps[i]
    requires forall i, k :: 0 <= i < |maps| - 1 && LastBinding(maps[..|maps| - 1], i, k) ==> acc[k] == maps[i][k]
    requires (forall i :: 0 <= i < |maps| - 1 ==> NonNegative(maps[i])) ==> NonNegative(acc)
    ensures var r := acc + maps[|maps| - 1];
            && (forall k :: k in r <==> exists i :: 0 <= i < |maps| && k in maps[i])
            && (forall i, k :: 0 <= i < |maps| && LastBinding(maps, i, k) ==> r[k] == maps[i][k])
            && ((forall i :: 0 <= i < |maps| ==> NonNegative(maps[i])) ==> NonNegative(r))
  {
    var n := |maps| - 1;
    var r := acc + maps[n];
    forall i, k | 0 <= i < |maps| && LastBinding(maps, i, k) ensures r[k] == maps[i][k] {
      if i < n {
        assert LastBinding(maps[..n], i, k);
      }
    }
    forall k | k in r ensures exists i :: 0 <= i < |maps| && k in maps[i] {
      if k !in maps[n] {
        var i :| 0 <= i < n && k in maps[i];
      }
    }
  }

  /** With pairwise disjoint key sets the merge order does not matter: every
      binding of every map survives. */
  lemma MergeDisjoint(maps: seq<Rates>)
    requires forall i, j :: 0 <= i < j < |maps| ==> maps[i].Keys !! maps[j].Keys
    ensures forall i, k :: 0 <= i < |maps| && k in maps[i] ==> k in MergeAll(maps) && MergeAll(maps)[k] == maps[i][k]
  {
    forall i, k | 0 <= i < |maps| && k in maps[i]
      ensures k in MergeAll(maps) && MergeAll(maps)[k] == maps[i][k]
    {
      assert LastBinding(maps, i, k);
    }
  }

  /** `chunks.map(&convert)` where `convert` raises: the results in order, or
      the error of the first chunk that fails. */
  function MapChunks(convert: seq<Symbol> -> Result<Rates, QuoteError>, chunks: seq<seq<Symbol>>)
    : (r: Result<seq<Rates>, QuoteError>)
    ensures r.Success? ==> |r.value| == |chunks|
    ensures r.Success? ==> forall i :: 0 <= i < |chunks| ==> convert(chunks[i]) == Success(r.value[i])
    ensures r.Failure? ==> exists i :: 0 <= i < |chunks| && convert(chunks[i]) == Failure(r.error)
                                       && forall j :: 0 <= j < i ==> convert(chunks[j]).Success?
  {
    if |chunks| == 0 then Success([])
    else
      var n := |chunks| - 1;
      match MapChunks(convert, chunks[..n])
      case Failure(e) =>
        assert forall i :: 0 <= i < n ==> chunks[..n][i] == chunks[i];
        Failure(e)
      case Success(init) =>
        match convert(chunks[n])
        case Failure(e) =>
          assert forall j :: 0 <= j < n ==> chunks[..n][j] == chunks[j];
          assert convert(chunks[n]) == Failure(e);
          Failure(e)
        case Success(last) =>
          var r := init + [last];
          assert forall i :: 0 <= i < n ==> chunks[..n][i] == chunks[i] && r[i] == init[i];
          Success(r)
  }

  /** `chunks.map { |chunk| convert(chunk, to, duration) }`: one request per
      chunk, in order; the first failing request aborts with its error. */
  function ConvertChunks(service: Request -> Json, now: int, chunks: seq<seq<Symbol>>, to: string, duration: Option<Duration>)
    : (r: Result<seq<Rates>, QuoteError>)
    ensures r.Success? ==> |r.value| == |chunks|
    ensures r.Success? ==> forall i :: 0 <= i < |chunks| ==> Convert(service, now, chunks[i], to, duration) == Success(r.value[i])
    ensures r.Failure? ==> exists i :: 0 <= i < |chunks| && Convert(service, now, chunks[i], to, duration) == Failure(r.error)
                                       && forall j :: 0 <= j < i ==> Convert(service, now, chunks[j], to, duration).Success?
  {
    MapChunks(chunk => Convert(service, now, chunk, to, duration), chunks)
  }

  /** `filter_missing_values`: drop the zero historical rates, then keep only
      the current rates whose symbol still has a historical rate. */
  function FilterMissingValues(c: Conversions): (r: Conversions)
    ensures forall k :: k in r.historical <==> k in c.historical && c.historical[k] != 0.0
    ensures forall k :: k in r.historical ==> r.historical[k] == c.historical[k]
    ensures r.current.Keys == c.current.Keys * r.historical.Keys
    ensures forall k :: k in r.current ==> r.current[k] == c.current[k]
  {
    var historical := map k | k in c.historical && c.historical[k] != 0.0 :: c.historical[k];
    var current := map k | k in c.current && k in historical :: c.current[k];
    Conversions(current, historical)
  }

  /** Every symbol left in the current map has a usable (non-zero) historical rate. */
  lemma FilterLeavesUsableRates(c: Conversions)
    ensures var r := FilterMissingValues(c);
            forall k :: k in r.current ==> k in r.historical && r.historical[k] != 0.0
  {
  }

  /** Filtering twice is filtering once. */
  lemma FilterIdempotent(c: Conversions)
    ensures FilterMissingValues(FilterMissingValues(c)) == FilterMissingValues(c)
  {
    var once := FilterMissingValues(c);
    var twice := FilterMissingValues(once);
    assert twice.historical == once.historical;
    assert twice.current == once.current;
  }

  /** The merge of successfully converted chunks holds no negative rate. */
  lemma MergedChunksNonNegative(service: Request -> Json, now: int, from: seq<Symbol>, to: string, duration: Duration,
                                historicalChunks: seq<Rates>)
    requires ConvertChunks(service, now, Chunks(from), to, Some(duration)) == Success(historicalChunks)
    ensures NonNegative(MergeAll(historicalChunks))
  {
    forall i | 0 <= i < |historicalChunks| ensures NonNegative(historicalChunks[i]) {
      assert Convert(service, now, Chunks(from)[i], to, Some(duration)) == Success(historicalChunks[i]);
    }
  }

  /** On non-negative rates the filter leaves only positive historical rates,
      and every current symbol keeps a historical rate. */
  lemma FilterKeepsPositive(c: Conversions)
    requires NonNegative(c.current) && NonNegative(c.historical)
    ensures var r := FilterMissingValues(c);
            && NonNegative(r.current) && NonNegative(r.historical)
            && r.current.Keys <= r.historical.Keys
            && forall k :: k in r.historical ==> r.historical[k] > 0.0
  {
  }

  /** `get_conversions`: the historical map is the merge of one request per
      chunk, the current map comes from one unchunked request, and with
      `filter` both pass through `FilterMissingValues`. Every rate is
      non-negative. */
  function GetConversions(service: Request -> Json, now: int, from: seq<Symbol>, to: string, duration: Duration, filter: bool)
    : (r: Result<Conversions, QuoteError>)
    ensures r.Success? <==> ConvertChunks(service, now, Chunks(from), to, Some(duration)).Success? && Convert(service, now, from, to, None).Success?
    ensures r.Failure? ==> r.error == if ConvertChunks(service, now, Chunks(from), to, Some(duration)).Failure? then ConvertChunks(service, now, Chunks(from), to, Some(duration)).error else Convert(service, now, from, to, None).error
    ensures r.Success? ==>
              var fetched := Conversions(Convert(service, now, from, to, None).value, MergeAll(ConvertChunks(service, now, Chunks(from), to, Some(duration)).value));
              r.value == if filter then FilterMissingValues(fetched) else fetched
    ensures r.Success? ==> NonNegative(r.value.current) && NonNegative(r.value.historical)
    ensures r.Success? && !filter ==>
              var chunks := ConvertChunks(service, now, Chunks(from), to, Some(duration)).value;
              && r.value.current == Convert(service, now, from, to, None).value
              && forall k :: k in r.value.historical <==> exists i :: 0 <= i < |chunks| && k in chunks[i]
    ensures r.Success? && filter ==>
              && r.value.current.Keys <= r.value.historical.Keys
              && forall k :: k in r.value.historical ==> r.value.historical[k] > 0.0
  {
    match ConvertChunks(service, now, Chunks(from), to, Some(duration))
    case Failure(e) => Failure(e)
    case Success(historicalChunks) =>
      match Convert(service, now, from, to, None)
      case Failure(e) => Failure(e)
      case Success(current) =>
        var historical := MergeAll(historicalChunks);
        MergedChunksNonNegative(service, now, from, to, duration, historicalChunks);
        var conversions := Conversions(current, historical);
        FilterKeepsPositive(conversions);
        Success(if filter then FilterMissingValues(conversions) else conversions)
  }

  /** The symbols of a sequence, as a set. */
  function Elements(symbols: seq<Symbol>): set<Symbol>
  {
    set s | s in symbols
  }

  lemma {:induction false} FlattenElements(chunks: seq<seq<Symbol>>)
    ensures forall s :: s in Flatten(chunks) <==> exists i :: 0 <= i < |chunks| && s in chunks[i]
  {
    if |chunks| > 0 {
      var init := chunks[..|chunks| - 1];
      FlattenElements(init);
      forall s | s in Flatten(chunks) ensures exists i :: 0 <= i < |chunks| && s in chunks[i] {
        if s !in chunks[|chunks| - 1] {
          var i :| 0 <= i < |init| && s in init[i];
          assert chunks[i] == init[i];
        }
      }
      forall s, i | 0 <= i < |chunks| && s in chunks[i] ensures s in Flatten(chunks) {
        if i < |init| {
          assert init[i] == chunks[i];
        }
      }
    }
  }

  /** Symbols that read back unambiguously from `tsyms`: none is empty and
      none contains a comma (`[]` and `[""]` both join to ""). */
  predicate Requestable(symbols: seq<Symbol>)
  {
    forall s :: s in symbols ==> |s| > 0 && Comma !in s
  }

  /** A service that prices exactly the symbols each request asks for. */
  ghost predicate Complete(service: Request -> Json, now: int, to: string)
  {
    forall symbols: seq<Symbol>, d: Option<Duration> | Requestable(symbols) ::
      Convert(service, now, symbols, to, d).Success? &&
      Convert(service, now, symbols, to, d).value.Keys == Elements(symbols)
  }

  /** A price table quoting every symbol of a `tsyms` value at 1. */
  function UnitPrices(tsyms: string): (r: map<string, Json>)
    ensures forall s :: s in r ==> r[s] == Number(1.0)
  {
    if tsyms == "" then map[] else map s | s in Split(tsyms, Comma) :: Number(1.0)
  }

  /** A service answering every request with a unit price for each listed
      symbol, wrapped under the target currency on the historical path. */
  function UnitService(to: string): Request -> Json
  {
    (req: Request) =>
      match Lookup(req.params, "tsyms")
      case Some(StringParam(t)) =>
        if req.path == ApiPathHistorical then Object(map[to := Object(UnitPrices(t))]) else Object(UnitPrices(t))
      case _ => Other
  }

  /** The tsyms value of a request for requestable symbols prices exactly those symbols. */
  lemma UnitPricesOfRequest(symbols: seq<Symbol>, to: string, d: Option<Duration>, now: int)
    requires Requestable(symbols)
    ensures Lookup(ApiRequest(symbols, to, d, now).params, "tsyms") == Some(StringParam(Join(symbols, Comma)))
    ensures UnitPrices(Join(symbols, Comma)).Keys == Elements(symbols)
  {
    var t := Join(symbols, Comma);
    if |symbols| > 0 {
      assert SeparatorFree(symbols, Comma) by {
        forall i | 0 <= i < |symbols| ensures Comma !in symbols[i] {
          assert symbols[i] in symbols;
        }
      }
      assert symbols[|symbols| - 1] in symbols;
      assert |t| > 0;
      RequestListsSymbols(symbols, to, d, now);
    }
  }

  /** Complete services exist, so the lemmas below are not vacuous. */
  lemma {:induction false} UnitServiceIsComplete(now: int, to: string)
    ensures Complete(UnitService(to), now, to)
  {
    forall symbols: seq<Symbol>, d: Option<Duration> | Requestable(symbols)
      ensures Convert(UnitService(to), now, symbols, to, d).Success?
      ensures Convert(UnitService(to), now, symbols, to, d).value.Keys == Elements(symbols)
    {
      UnitPricesOfRequest(symbols, to, d, now);
      var req := ApiRequest(symbols, to, d, now);
      var table := UnitPrices(Join(symbols, Comma));
      assert UnitService(to)(req) == if d.Some? then Object(map[to := Object(table)]) else Object(table);
      assert QuoteData(UnitService(to)(req), to, d.Some?) == Success(table);
    }
  }

  /** Every chunk of requestable symbols is requestable. */
  lemma ChunksRequestable(from: seq<Symbol>)
    requires Requestable(from)
    ensures forall i :: 0 <= i < |Chunks(from)| ==> Requestable(Chunks(from)[i])
  {
    forall i, k | 0 <= i < |Chunks(from)| && k in Chunks(from)[i] ensures k in from {
      ChunkSymbolInInput(from, i, k);
    }
  }

  /** Against a complete service, chunking loses no symbol: without the filter,
      both maps price exactly the requested symbols. */
  lemma {:induction false} CompleteServicePricesEverySymbol(service: Request -> Json, now: int, from: seq<Symbol>, to: string, duration: Duration)
    requires Complete(service, now, to)
    requires Requestable(from)
    ensures var r := GetConversions(service, now, from, to, duration, false);
            r.Success? && r.value.current.Keys == Elements(from) && r.value.historical.Keys == Elements(from)
  {
    var current := Convert(service, now, from, to, None);
    CompleteConverts(service, now, from, to, None);
    ChunkResultsCoverSymbols(service, now, from, to, duration);
    var chunks := ConvertChunks(service, now, Chunks(from), to, Some(duration));
    var r := GetConversions(service, now, from, to, duration, false);
    assert r.value == Conversions(current.value, MergeAll(chunks.value));
    forall k ensures k in r.value.historical <==> k in Elements(from) {
      assert k in r.value.historical <==> exists i :: 0 <= i < |chunks.value| && k in chunks.value[i];
    }
  }

  /** A complete service answers one request for requestable symbols with exactly those symbols. */
  lemma CompleteConverts(service: Request -> Json, now: int, symbols: seq<Symbol>, to: string, d: Option<Duration>)
    requires Complete(service, now, to)
    requires Requestable(symbols)
    ensures Convert(service, now, symbols, to, d).Success?
    ensures Convert(service, now, symbols, to, d).value.Keys == Elements(symbols)
  {
  }

  /** Against a complete service, the chunk requests together price every symbol and nothing else. */
  lemma {:induction false} ChunkResultsCoverSymbols(service: Request -> Json, now: int, from: seq<Symbol>, to: string, duration: Duration)
    requires Complete(service, now, to)
    requires Requestable(from)
    ensures var results := ConvertChunks(service, now, Chunks(from), to, Some(duration));
            && results.Success?
            && forall k :: (exists i :: 0 <= i < |results.value| && k in results.value[i]) <==> k in from
  {
    var chunks := Chunks(from);
    var results := ConvertChunks(service, now, chunks, to, Some(duration));
    ChunkRequestsSucceed(service, now, from, to, duration);
    forall k ensures (exists i :: 0 <= i < |results.value| && k in results.value[i]) <==> k in from {
      if k in from {
        SymbolPricedByItsChunk(service, now, from, to, duration, k);
      }
      if exists i :: 0 <= i < |results.value| && k in results.value[i] {
        var i :| 0 <= i < |results.value| && k in results.value[i];
        PricedSymbolRequested(service, now, from, to, duration, i, results.value[i], k);
      }
    }
  }

  /** Against a complete service, no chunk request fails. */
  lemma ChunkRequestsSucceed(service: Request -> Json, now: int, from: seq<Symbol>, to: string, duration: Duration)
    requires Complete(service, now, to)
    requires Requestable(from)
    ensures ConvertChunks(service, now, Chunks(from), to, Some(duration)).Success?
  {
    ChunksRequestable(from);
  }

  lemma SymbolPricedByItsChunk(service: Request -> Json, now: int, from: seq<Symbol>, to: string, duration: Duration, k: Symbol)
    requires Complete(service, now, to)
    requires Requestable(from)
    requires k in from
    ensures var results := ConvertChunks(service, now, Chunks(from), to, Some(duration));
            results.Success? && exists i :: 0 <= i < |results.value| && k in results.value[i]
  {
    ChunkRequestsSucceed(service, now, from, to, duration);
    var chunks := Chunks(from);
    var results := ConvertChunks(service, now, chunks, to, Some(duration)).value;
    SymbolInSomeChunk(from, k);
    ChunksRequestable(from);
    var i :| 0 <= i < |chunks| && k in chunks[i];
    assert Convert(service, now, chunks[i], to, Some(duration)) == Success(results[i]);
  }

  lemma PricedSymbolRequested(service: Request -> Json, now: int, from: seq<Symbol>, to: string, duration: Duration,
                               i: int, rates: Rates, k: Symbol)
    requires Complete(service, now, to)
    requires Requestable(from)
    requires 0 <= i < |Chunks(from)|
    requires Convert(service, now, Chunks(from)[i], to, Some(duration)) == Success(rates)
    requires k in rates
    ensures k in from
  {
    var chunks := Chunks(from);
    ChunksRequestable(from);
    CompleteConverts(service, now, chunks[i], to, Some(duration));
    ChunkSymbolInInput(from, i, k);
  }

  lemma SymbolInSomeChunk(from: seq<Symbol>, k: Symbol)
    requires k in from
    ensures exists i :: 0 <= i < |Chunks(from)| && k in Chunks(from)[i]
  {
    ChunksFlatten(from);
    FlattenElements(Chunks(from));
  }

  lemma ChunkSymbolInInput(from: seq<Symbol>, i: int, k: Symbol)
    requires 0 <= i < |Chunks(from)| && k in Chunks(from)[i]
    ensures k in from
  {
    ChunksFlatten(from);
    FlattenElements(Chunks(from));
  }
}

=== FILE: holdings.dfy ===
/** Holdings as the persistence layer hands them to the valuation engine, and
    their worth under a conversion map: the sum of rate × amount. */
module Holdings {
  import opened Quotes

  /** A `(symbol, amount)` row of the holdings table. */
  datatype Holding = Holding(symbol: Symbol, amount: real)

  /** Every row's symbol has a rate; otherwise the source multiplies nil and aborts. */
  predicate Priced(rows: seq<Holding>, rates: Rates)
  {
    forall i :: 0 <= i < |rows| ==> rows[i].symbol in rates
  }

  /** Amounts as the holdings table keeps them: an update to 0 or less deletes
      the row (gainz.rb:264-274). */
  predicate PositiveAmounts(rows: seq<Holding>)
  {
    forall i :: 0 <= i < |rows| ==> rows[i].amount > 0.0
  }

  /** `rates[symbol] * amount` for one row. */
  function Value(rates: Rates, h: Holding): real
    requires h.symbol in rates
  {
    rates[h.symbol] * h.amount
  }

  /** The sum of the rows' values. */
  function Worth(rates: Rates, rows: seq<Holding>): (r: real)
    requires Priced(rows, rates)
    ensures NonNegative(rates) && PositiveAmounts(rows) ==> r >= 0.0
  {
    if |rows| == 0 then 0.0 else Value(rates, rows[0]) + Worth(rates, rows[1..])
  }

  /** A row added at the end adds its value: the sum reads the same from either end. */
  lemma {:induction false} WorthSnoc(rates: Rates, rows: seq<Holding>, h: Holding)
    requires Priced(rows + [h], rates)
    ensures Priced(rows, rates) && h.symbol in rates
    ensures Worth(rates, rows + [h]) == Worth(rates, rows) + Value(rates, h)
  {
    assert (rows + [h])[|rows|] == h;
    assert forall i :: 0 <= i < |rows| ==> (rows + [h])[i] == rows[i];
    if |rows| > 0 {
      assert (rows + [h])[1..] == rows[1..] + [h];
      WorthSnoc(rates, rows[1..], h);
    }
  }

  /** With non-negative rates and positive amounts, a row of non-zero value
      makes the worth positive. */
  lemma {:induction false} WorthPositive(rates: Rates, rows: seq<Holding>, i: int)
    requires Priced(rows, rates) && NonNegative(rates) && PositiveAmounts(rows)
    requires 0 <= i < |rows| && Value(rates, rows[i]) != 0.0
    ensures Worth(rates, rows) > 0.0
  {
    assert rates[rows[0].symbol] >= 0.0 && rows[0].amount > 0.0;
    if i > 0 {
      WorthPositive(rates, rows[1..], i - 1);
    }
  }
}

=== FILE: leaderboard.dfy ===
/** The leaderboard command's aggregation (gainz.rb:411-458): conversions
    fetched with the filter on, holdings kept only on symbols that survived
    it, grouped by user, summed per user, ordered by current total and ranked. */
module Leaderboard {
  import opened Wrappers
  import opened Quotes
  import opened Holdings
  import opened Ranking
  import opened Change
  import opened Conversions

  /** A `(name, symbol, amount)` row of the leaderboard's holdings query. */
  datatype Entry = Entry(user: string, holding: Holding)

  /** `[user, total, historical_total]` for one user. */
  datatype UserTotal = UserTotal(user: string, total: real, historicalTotal: real)

  /** A printed leaderboard row: 1-based rank, user, both totals and the change
      (`None` where the source would divide by a zero baseline). */
  datatype Standing = Standing(rank: nat, user: string, total: real, historicalTotal: real, change: Option<real>)

  /** Every row's symbol has a rate. */
  predicate PricedEntries(rows: seq<Entry>, rates: Rates)
  {
    forall e :: e in rows ==> e.holding.symbol in rates
  }

  /** Every symbol `current` prices, `historical` prices too. */
  predicate Covers(historical: Rates, current: Rates)
  {
    forall s :: s in current ==> s in historical
  }

  /** The holdings query restricted to the valid crypto ids (gainz.rb:418-429):
      the rows whose symbol has a rate in `rates`, in order. */
  function KeepValid(rows: seq<Entry>, rates: Rates): (r: seq<Entry>)
    ensures forall e :: e in r <==> e in rows && e.holding.symbol in rates
    ensures |r| <= |rows|
    ensures PricedEntries(r, rates)
    ensures forall e {:trigger multiset(r)[e]} :: multiset(r)[e] == if e.holding.symbol in rates then multiset(rows)[e] else 0
  {
    if |rows| == 0 then []
    else
      assert rows == rows[..|rows| - 1] + [rows[|rows| - 1]];
      if rows[|rows| - 1].holding.symbol in rates then KeepValid(rows[..|rows| - 1], rates) + [rows[|rows| - 1]]
      else KeepValid(rows[..|rows| - 1], rates)
  }

  /** The keys of `group_by { |(name)| name }`: each user once, in order of first appearance. */
  function Users(rows: seq<Entry>): (r: seq<string>)
    ensures forall u :: u in r <==> exists e :: e in rows && e.user == u
    ensures Distinct(r)
  {
    if |rows| == 0 then []
    else
      var pre := rows[..|rows| - 1];
      var e := rows[|rows| - 1];
      var users := Users(pre);
      assert forall x :: x in pre ==> x in rows;
      if e.user in users then users else users + [e.user]
  }

  /** The group of `u` under `group_by`: the user's rows, in order. */
  function RowsOf(rows: seq<Entry>, u: string): (r: seq<Entry>)
    ensures forall e :: e in r <==> e in rows && e.user == u
    ensures forall e {:trigger multiset(r)[e]} :: multiset(r)[e] == if e.user == u then multiset(rows)[e] else 0
  {
    if |rows| == 0 then []
    else
      var pre := rows[..|rows| - 1];
      var e := rows[|rows| - 1];
      assert rows == pre + [e];
      if e.user == u then RowsOf(pre, u) + [e] else RowsOf(pre, u)
  }

  /** The holdings of the entries, in order. */
  function HoldingsOf(group: seq<Entry>): (r: seq<Holding>)
    ensures |r| == |group|
    ensures forall i :: 0 <= i < |group| ==> r[i] == group[i].holding
  {
    if |group| == 0 then []
    else HoldingsOf(group[..|group| - 1]) + [group[|group| - 1].holding]
  }

  /** `value.reduce(0) { |total, (_, crypto, amount)| total + conversions[crypto] * amount }`.
      The fold runs from the last row, as the grouping proofs extend a row list
      at its end; `GroupTotalIsWorth` shows it is the worth of the group's holdings. */
  function GroupTotal(rates: Rates, group: seq<Entry>): real
    requires PricedEntries(group, rates)
  {
    if |group| == 0 then 0.0
    else
      var pre := group[..|group| - 1];
      assert forall x :: x in pre ==> x in group;
      GroupTotal(rates, pre) + Value(rates, group[|group| - 1].holding)
  }

  /** A group's total is the worth of its holdings. */
  lemma {:induction false} GroupTotalIsWorth(rates: Rates, group: seq<Entry>)
    requires PricedEntries(group, rates)
    ensures Priced(HoldingsOf(group), rates)
    ensures GroupTotal(rates, group) == Worth(rates, HoldingsOf(group))
  {
    assert forall i :: 0 <= i < |group| ==> group[i] in group;
    if |group| > 0 {
      var pre := group[..|group| - 1];
      var e := group[|group| - 1];
      assert forall x :: x in pre ==> x in group;
      GroupTotalIsWorth(rates, pre);
      WorthSnoc(rates, HoldingsOf(pre), e.holding);
    }
  }

  /** `get_total` for one user: the total of the user's group. */
  function UserTotalOf(rates: Rates, rows: seq<Entry>, u: string): real
    requires PricedEntries(rows, rates)
  {
    GroupTotal(rates, RowsOf(rows, u))
  }

  /** `users.map { ... }` (gainz.rb:431-443): one entry per owner, each once,
      with the totals of that owner's rows; grouping loses and double-counts
      nothing, so both columns add up to the total of all rows. */
  function UserTotals(rows: seq<Entry>, current: Rates, historical: Rates): (r: seq<UserTotal>)
    requires PricedEntries(rows, current) && PricedEntries(rows, historical)
    ensures |r| == |Users(rows)|
    ensures forall i :: 0 <= i < |r| ==> r[i].user == Users(rows)[i]
    ensures forall i :: 0 <= i < |r| ==>
              && r[i].total == UserTotalOf(current, rows, r[i].user)
              && r[i].historicalTotal == UserTotalOf(historical, rows, r[i].user)
    ensures SumOf(r, TotalOf) == GroupTotal(current, rows)
    ensures SumOf(r, HistoricalOf) == GroupTotal(historical, rows)
  {
    var users := Users(rows);
    var r := seq(|users|, i requires 0 <= i < |users| =>
      UserTotal(users[i], UserTotalOf(current, rows, users[i]), UserTotalOf(historical, rows, users[i])));
    TotalsSum(current, rows, users, r, TotalOf);
    TotalsSum(historical, rows, users, r, HistoricalOf);
    GroupingPreservesTotal(current, rows);
    GroupingPreservesTotal(historical, rows);
    r
  }

  function TotalOf(t: UserTotal): real
  {
    t.total
  }

  function StandingTotal(s: Standing): real
  {
    s.total
  }

  /** `each_with_index` over the sorted totals: rank i + 1 for position i. */
  function Standings(sorted: seq<UserTotal>): seq<Standing>
  {
    seq(|sorted|, i requires 0 <= i < |sorted| =>
      Standing(i + 1, sorted[i].user, sorted[i].total, sorted[i].historicalTotal,
               TotalChange(sorted[i].total, sorted[i].historicalTotal)))
  }

  /** The `[user, total, historical_total]` triples a sequence of standings prints. */
  function TotalsOf(r: seq<Standing>): seq<UserTotal>
  {
    seq(|r|, i requires 0 <= i < |r| => UserTotal(r[i].user, r[i].total, r[i].historicalTotal))
  }

  /** `sort_by { |(_, total)| -total }` and `each_with_index` (gainz.rb:444, 457-458):
      the standings are the user totals rearranged with non-increasing current
      totals, ranked by position, each with the change of its own totals. */
  function Rank(totals: seq<UserTotal>): (r: seq<Standing>)
    ensures |r| == |totals|
    ensures forall i :: 0 <= i < |r| ==> r[i].rank == i + 1
    ensures forall i, j :: 0 <= i < j < |r| ==> r[i].total >= r[j].total
    ensures forall i :: 0 <= i < |r| ==> r[i].change == TotalChange(r[i].total, r[i].historicalTotal)
    ensures multiset(TotalsOf(r)) == multiset(totals)
  {
    var sorted := SortDescending(totals, TotalOf);
    SortMembers(totals, TotalOf);
    var r := Standings(sorted);
    assert TotalsOf(r) == sorted;
    r
  }

  /** Every ranked triple is one of the user totals. */
  lemma {:induction false} RankedMembers(totals: seq<UserTotal>)
    ensures var t := TotalsOf(Rank(totals));
            forall i :: 0 <= i < |t| ==> t[i] in totals
  {
    var t := TotalsOf(Rank(totals));
    forall i | 0 <= i < |t| ensures t[i] in totals {
      assert t[i] in multiset(t);
    }
  }

  /** Ranking keeps users distinct when the totals have distinct users. */
  lemma {:induction false} RankedUsersDistinct(totals: seq<UserTotal>)
    requires forall i, j :: 0 <= i < j < |totals| ==> totals[i].user != totals[j].user
    ensures var r := Rank(totals);
            forall i, j :: 0 <= i < j < |r| ==> r[i].user != r[j].user
  {
    var r := Rank(totals);
    var t := TotalsOf(r);
    assert Distinct(totals);
    SortDistinct(totals, TotalOf);
    assert t == SortDescending(totals, TotalOf);
    forall i, j | 0 <= i < j < |r| ensures r[i].user != r[j].user {
      RankedMembers(totals);
      var p :| 0 <= p < |totals| && totals[p] == t[i];
      var q :| 0 <= q < |totals| && totals[q] == t[j];
      assert t[i] != t[j];
    }
  }

  /** Every user total appears among the standings. */
  lemma {:induction false} RankedCovers(totals: seq<UserTotal>)
    ensures var r := Rank(totals);
            forall p :: 0 <= p < |totals| ==> exists i :: 0 <= i < |r| && r[i].user == totals[p].user
  {
    var r := Rank(totals);
    var t := TotalsOf(r);
    forall p | 0 <= p < |totals| ensures exists i :: 0 <= i < |r| && r[i].user == totals[p].user {
      assert totals[p] in multiset(totals);
      assert totals[p] in t;
      var i :| 0 <= i < |t| && t[i] == totals[p];
      assert r[i].user == totals[p].user;
    }
  }

  /** The leaderboard (gainz.rb:418-458) over the holdings `rows` of every user,
      given conversions fetched with the filter on: holdings on a symbol without
      a current rate are dropped, the rest are grouped by user, each user's
      holdings are valued under both maps, and the users are ranked by their
      current totals. */
  function Leaderboard(rows: seq<Entry>, current: Rates, historical: Rates): (r: seq<Standing>)
    requires Covers(historical, current)
    ensures forall i :: 0 <= i < |r| ==> r[i].rank == i + 1
    ensures forall i, j :: 0 <= i < j < |r| ==> r[i].total >= r[j].total
    ensures forall i, j :: 0 <= i < j < |r| ==> r[i].user != r[j].user
    ensures OnlyOwners(r, rows, current) && AllOwners(r, rows, current)
    ensures var kept := KeepValid(rows, current);
            forall i :: 0 <= i < |r| ==>
              && r[i].total == UserTotalOf(current, kept, r[i].user)
              && r[i].historicalTotal == UserTotalOf(historical, kept, r[i].user)
              && r[i].change == TotalChange(r[i].total, r[i].historicalTotal)
  {
    var kept := KeepValid(rows, current);
    var totals := UserTotals(kept, current, historical);
    RankedUsersDistinct(totals);
    StandingsAreUserTotals(kept, current, historical);
    StandingsAreOwners(rows, current, historical);
    OwnersAreRanked(rows, current, historical);
    Rank(totals)
  }

  /** Each standing is the totals of a user who holds something. */
  lemma {:induction false} StandingsAreUserTotals(kept: seq<Entry>, current: Rates, historical: Rates)
    requires PricedEntries(kept, current) && PricedEntries(kept, historical)
    ensures var r := Rank(UserTotals(kept, current, historical));
            forall i :: 0 <= i < |r| ==>
              && (exists e :: e in kept && e.user == r[i].user)
              && r[i].total == UserTotalOf(current, kept, r[i].user)
              && r[i].historicalTotal == UserTotalOf(historical, kept, r[i].user)
  {
    var totals := UserTotals(kept, current, historical);
    var users := Users(kept);
    var r := Rank(totals);
    var t := TotalsOf(r);
    RankedMembers(totals);
    forall i | 0 <= i < |r|
      ensures exists e :: e in kept && e.user == r[i].user
      ensures r[i].total == UserTotalOf(current, kept, r[i].user)
      ensures r[i].historicalTotal == UserTotalOf(historical, kept, r[i].user)
    {
      assert t[i] in totals;
      var p :| 0 <= p < |totals| && totals[p] == t[i];
      assert users[p] in users;
    }
  }

  /** Every user who holds something has a standing. */
  lemma {:induction false} StandingsCoverUsers(kept: seq<Entry>, current: Rates, historical: Rates)
    requires PricedEntries(kept, current) && PricedEntries(kept, historical)
    ensures var r := Rank(UserTotals(kept, current, historical));
            forall e :: e in kept ==> exists i :: 0 <= i < |r| && r[i].user == e.user
  {
    var totals := UserTotals(kept, current, historical);
    var users := Users(kept);
    var r := Rank(totals);
    RankedCovers(totals);
    forall e | e in kept ensures exists i :: 0 <= i < |r| && r[i].user == e.user {
      assert e.user in users;
      var p :| 0 <= p < |users| && users[p] == e.user;
      assert totals[p].user == e.user;
    }
  }

  /** Every user of `r` owns a holding in `rows` on a symbol `current` prices. */
  predicate OnlyOwners(r: seq<Standing>, rows: seq<Entry>, current: Rates)
  {
    forall i :: 0 <= i < |r| ==> exists e :: e in rows && e.user == r[i].user && e.holding.symbol in current
  }

  /** Every owner of a holding in `rows` on a symbol `current` prices is a user of `r`. */
  predicate AllOwners(r: seq<Standing>, rows: seq<Entry>, current: Rates)
  {
    forall e :: e in rows && e.holding.symbol in current ==> exists i :: 0 <= i < |r| && r[i].user == e.user
  }

  /** Only owners of a holding on a symbol with a current rate are ranked. */
  lemma {:induction false} StandingsAreOwners(rows: seq<Entry>, current: Rates, historical: Rates)
    requires Covers(historical, current)
    ensures OnlyOwners(Rank(UserTotals(KeepValid(rows, current), current, historical)), rows, current)
  {
    var kept := KeepValid(rows, current);
    var r := Rank(UserTotals(kept, current, historical));
    RankedUsersAreUsers(kept, current, historical);
    forall i | 0 <= i < |r| ensures exists e :: e in rows && e.user == r[i].user && e.holding.symbol in current {
      assert r[i].user in Users(kept);
      var e :| e in kept && e.user == r[i].user;
    }
  }

  /** Every ranked user is a key of the grouping. */
  lemma {:induction false} RankedUsersAreUsers(kept: seq<Entry>, current: Rates, historical: Rates)
    requires PricedEntries(kept, current) && PricedEntries(kept, historical)
    ensures var r := Rank(UserTotals(kept, current, historical));
            forall i :: 0 <= i < |r| ==> r[i].user in Users(kept)
  {
    var totals := UserTotals(kept, current, historical);
    var r := Rank(totals);
    var t := TotalsOf(r);
    RankedMembers(totals);
    forall i | 0 <= i < |r| ensures r[i].user in Users(kept) {
      assert t[i] in totals;
      var p :| 0 <= p < |totals| && totals[p] == t[i];
      assert Users(kept)[p] in Users(kept);
    }
  }

  /** Every owner of a holding on a symbol with a current rate is ranked. */
  lemma {:induction false} OwnersAreRanked(rows: seq<Entry>, current: Rates, historical: Rates)
    requires Covers(historical, current)
    ensures AllOwners(Rank(UserTotals(KeepValid(rows, current), current, historical)), rows, current)
  {
    var kept := KeepValid(rows, current);
    var r := Rank(UserTotals(kept, current, historical));
    forall e | e in rows && e.holding.symbol in current ensures exists i :: 0 <= i < |r| && r[i].user == e.user {
      StandingsCoverUsers(kept, current, historical);
      assert e in kept;
    }
  }

  /** The sum, over the users `us`, of each user's group total. */
  function UsersSum(rates: Rates, rows: seq<Entry>, us: seq<string>): real
    requires PricedEntries(rows, rates)
  {
    if |us| == 0 then 0.0
    else UserTotalOf(rates, rows, us[0]) + UsersSum(rates, rows, us[1..])
  }

  /** Appending one row adds its value to its user's group and nothing else. */
  lemma {:induction false} UsersSumExtend(rates: Rates, pre: seq<Entry>, e: Entry, us: seq<string>)
    requires PricedEntries(pre + [e], rates) && Distinct(us)
    ensures UsersSum(rates, pre + [e], us)
            == UsersSum(rates, pre, us) + (if e.user in us then Value(rates, e.holding) else 0.0)
  {
    assert forall x :: x in pre ==> x in pre + [e];
    if |us| > 0 {
      UserTotalSnoc(rates, pre, e, us[0]);
      assert Distinct(us[1..]);
      UsersSumExtend(rates, pre, e, us[1..]);
      assert us[0] !in us[1..];
      assert e.user in us <==> e.user == us[0] || e.user in us[1..];
    }
  }

  /** A user with no row has an empty group. */
  lemma NoRowsOf(rows: seq<Entry>, u: string)
    requires u !in Users(rows)
    ensures RowsOf(rows, u) == []
  {
  }

  /** Adding a user's group at the end of the users adds their total. */
  lemma {:induction false} UsersSumAppend(rates: Rates, rows: seq<Entry>, us: seq<string>, u: string)
    requires PricedEntries(rows, rates)
    ensures UsersSum(rates, rows, us + [u]) == UsersSum(rates, rows, us) + UserTotalOf(rates, rows, u)
  {
    if |us| > 0 {
      assert (us + [u])[1..] == us[1..] + [u];
      UsersSumAppend(rates, rows, us[1..], u);
    }
  }

  /** A user's group after a new row of theirs. */
  lemma {:induction false} GroupOfNewUser(rates: Rates, pre: seq<Entry>, e: Entry)
    requires PricedEntries(pre + [e], rates) && e.user !in Users(pre)
    ensures UserTotalOf(rates, pre + [e], e.user) == Value(rates, e.holding)
  {
    UserTotalSnoc(rates, pre, e, e.user);
    NoRowsOf(pre, e.user);
  }

  /** Appending one row adds its value to its own user's total and to no other. */
  lemma UserTotalSnoc(rates: Rates, pre: seq<Entry>, e: Entry, u: string)
    requires PricedEntries(pre + [e], rates)
    ensures PricedEntries(pre, rates)
    ensures UserTotalOf(rates, pre + [e], u)
            == UserTotalOf(rates, pre, u) + (if e.user == u then Value(rates, e.holding) else 0.0)
  {
    var rows := pre + [e];
    assert forall x :: x in pre ==> x in rows;
    assert rows[..|rows| - 1] == pre && rows[|rows| - 1] == e;
    var g := RowsOf(pre, u);
    if e.user == u {
      assert RowsOf(rows, u) == g + [e];
      GroupTotalSnoc(rates, g, e);
    } else {
      assert RowsOf(rows, u) == g;
    }
  }

  lemma GroupTotalSnoc(rates: Rates, pre: seq<Entry>, e: Entry)
    requires PricedEntries(pre + [e], rates)
    ensures PricedEntries(pre, rates)
    ensures GroupTotal(rates, pre + [e]) == GroupTotal(rates, pre) + Value(rates, e.holding)
  {
    var rows := pre + [e];
    assert rows[..|rows| - 1] == pre;
  }

  /** `group_by` meets a new user at the end of the order of first appearance. */
  lemma UsersSnoc(pre: seq<Entry>, e: Entry)
    ensures Users(pre + [e]) == if e.user in Users(pre) then Users(pre) else Users(pre) + [e.user]
  {
    var rows := pre + [e];
    assert rows[..|rows| - 1] == pre;
  }

  /** One more row keeps the users' totals adding up to the total of all rows. */
  lemma GroupingStep(rates: Rates, pre: seq<Entry>, e: Entry)
    requires PricedEntries(pre + [e], rates) && PricedEntries(pre, rates)
    requires UsersSum(rates, pre, Users(pre)) == GroupTotal(rates, pre)
    ensures UsersSum(rates, pre + [e], Users(pre + [e])) == GroupTotal(rates, pre + [e])
  {
    GroupTotalSnoc(rates, pre, e);
    UsersSnoc(pre, e);
    UsersSumExtend(rates, pre, e, Users(pre));
    if e.user !in Users(pre) {
      UsersSumAppend(rates, pre + [e], Users(pre), e.user);
      GroupOfNewUser(rates, pre, e);
    }
  }

  /** Grouping by user loses and double-counts nothing: the users' totals add
      up to the total of all rows. */
  lemma {:induction false} GroupingPreservesTotal(rates: Rates, rows: seq<Entry>)
    requires PricedEntries(rows, rates)
    ensures UsersSum(rates, rows, Users(rows)) == GroupTotal(rates, rows)
  {
    if |rows| > 0 {
      var pre := rows[..|rows| - 1];
      var e := rows[|rows| - 1];
      assert rows == pre + [e];
      GroupTotalSnoc(rates, pre, e);
      GroupingPreservesTotal(rates, pre);
      GroupingStep(rates, pre, e);
    }
  }

  /** The sum of a sequence of user totals whose entries are the groups of `us`. */
  lemma {:induction false} TotalsSum(rates: Rates, rows: seq<Entry>, us: seq<string>, t: seq<UserTotal>, f: UserTotal -> real)
    requires PricedEntries(rows, rates)
    requires |t| == |us|
    requires forall i :: 0 <= i < |t| ==> f(t[i]) == UserTotalOf(rates, rows, us[i])
    ensures SumOf(t, f) == UsersSum(rates, rows, us)
  {
    if |t| > 0 {
      TotalsSum(rates, rows, us[1..], t[1..], f);
    }
  }

  function HistoricalOf(t: UserTotal): real
  {
    t.historicalTotal
  }

  function StandingHistorical(s: Standing): real
  {
    s.historicalTotal
  }

  /** Summing a standing column is summing the same column of its triples. */
  lemma {:induction false} StandingSums(r: seq<Standing>)
    ensures SumOf(r, StandingTotal) == SumOf(TotalsOf(r), TotalOf)
    ensures SumOf(r, StandingHistorical) == SumOf(TotalsOf(r), HistoricalOf)
  {
    if |r| > 0 {
      StandingSums(r[1..]);
      assert TotalsOf(r)[1..] == TotalsOf(r[1..]);
    }
  }

  /** Ranking rearranges the totals without changing either column's sum. */
  lemma {:induction false} RankSums(totals: seq<UserTotal>)
    ensures SumOf(Rank(totals), StandingTotal) == SumOf(totals, TotalOf)
    ensures SumOf(Rank(totals), StandingHistorical) == SumOf(totals, HistoricalOf)
  {
    var r := Rank(totals);
    StandingSums(r);
    assert TotalsOf(r) == SortDescending(totals, TotalOf);
    SortSum(totals, TotalOf, TotalOf);
    SortSum(totals, TotalOf, HistoricalOf);
  }

  /** The leaderboard's totals column adds up to the value of every holding on a
      symbol with a current rate, under each map: no holding is lost or counted twice. */
  lemma {:induction false} LeaderboardSums(rows: seq<Entry>, current: Rates, historical: Rates)
    requires Covers(historical, current)
    ensures var r := Leaderboard(rows, current, historical);
            var kept := KeepValid(rows, current);
            && SumOf(r, StandingTotal) == GroupTotal(current, kept)
            && SumOf(r, StandingHistorical) == GroupTotal(historical, kept)
  {
    var kept := KeepValid(rows, current);
    var totals := UserTotals(kept, current, historical);
    assert Rank(totals) == Leaderboard(rows, current, historical);
    RankSums(totals);
  }

  /** A nonempty group of positive amounts at positive rates has a positive total. */
  lemma {:induction false} GroupTotalPositive(rates: Rates, group: seq<Entry>)
    requires PricedEntries(group, rates) && |group| > 0
    requires forall e :: e in group ==> e.holding.amount > 0.0 && rates[e.holding.symbol] > 0.0
    ensures GroupTotal(rates, group) > 0.0
  {
    var pre := group[..|group| - 1];
    var e := group[|group| - 1];
    assert group == pre + [e];
    assert forall x :: x in pre ==> x in group;
    GroupTotalSnoc(rates, pre, e);
    PositiveProduct(rates[e.holding.symbol], e.holding.amount);
    if |pre| > 0 {
      GroupTotalPositive(rates, pre);
    }
  }

  lemma {:induction false} PositiveProduct(a: real, b: real)
    requires a > 0.0 && b > 0.0
    ensures a * b > 0.0
  {
  }

  /** With positive amounts and the filter's positive historical rates, every
      user's baseline is positive, so every standing has a change. */
  lemma {:induction false} EveryStandingHasChange(rows: seq<Entry>, current: Rates, historical: Rates)
    requires Covers(historical, current)
    requires forall e :: e in rows ==> e.holding.amount > 0.0
    requires forall k :: k in historical ==> historical[k] > 0.0
    ensures var r := Leaderboard(rows, current, historical);
            forall i :: 0 <= i < |r| ==> r[i].historicalTotal > 0.0 && r[i].change.Some?
  {
    var r := Leaderboard(rows, current, historical);
    var kept := KeepValid(rows, current);
    forall i | 0 <= i < |r| ensures r[i].historicalTotal > 0.0 && r[i].change.Some? {
      var e :| e in rows && e.user == r[i].user && e.holding.symbol in current;
      assert e in RowsOf(kept, r[i].user);
      GroupTotalPositive(historical, RowsOf(kept, r[i].user));
    }
  }

  /** Why the leaderboard command stops. */
  datatype LeaderboardError = NoCryptoData | QuoteFailed(quote: QuoteError)

  /** The leaderboard command (gainz.rb:403-458): it refuses to run without any
      tracked symbol, fetches conversions with the filter on, and ranks the
      users' holdings under them. */
  function LeaderboardReport(service: Request -> Json, now: int, symbols: seq<Symbol>, rows: seq<Entry>,
                             to: string, duration: Duration): (r: Result<seq<Standing>, LeaderboardError>)
    ensures |symbols| == 0 ==> r == Failure(NoCryptoData)
    ensures var c := GetConversions(service, now, symbols, to, duration, true);
            && (|symbols| > 0 && c.Failure? ==> r == Failure(QuoteFailed(c.error)))
            && (r.Success? <==> |symbols| > 0 && c.Success?)
            && (r.Success? ==>
                  && Covers(c.value.historical, c.value.current)
                  && r.value == Leaderboard(rows, c.value.current, c.value.historical))
  {
    if |symbols| == 0 then Failure(NoCryptoData)
    else
      match GetConversions(service, now, symbols, to, duration, true)
      case Failure(e) => Failure(QuoteFailed(e))
      case Success(c) =>
        assert Covers(c.historical, c.current);
        Success(Leaderboard(rows, c.current, c.historical))
  }

  /** When every holding has a positive amount, every user the command ranks
      has a positive baseline and so a change. */
  lemma {:induction false} ReportedStandingsHaveChanges(service: Request -> Json, now: int, symbols: seq<Symbol>,
                                                        rows: seq<Entry>, to: string, duration: Duration)
    requires forall e :: e in rows ==> e.holding.amount > 0.0
    ensures var r := LeaderboardReport(service, now, symbols, rows, to, duration);
            r.Success? ==> forall i :: 0 <= i < |r.value| ==> r.value[i].change.Some?
  {
    var r := LeaderboardReport(service, now, symbols, rows, to, duration);
    if r.Success? {
      var c := GetConversions(service, now, symbols, to, duration, true);
      assert r.value == Leaderboard(rows, c.value.current, c.value.historical);
      EveryStandingHasChange(rows, c.value.current, c.value.historical);
    }
  }
}

=== FILE: portfolio.dfy ===
/** The portfolio command's valuation block (gainz.rb:305-346): per-symbol
    changes, per-row current and historical values, the drop of rows whose
    historical value is zero, the two totals, and the rows ordered by value. */
module Portfolio {
  import opened Wrappers
  import opened Quotes
  import opened Holdings
  import opened Ranking
  import opened Change
  import opened Conversions

  /** A display row `[conversion, symbol, amount]`: a current value and the
      holding it is shown against. */
  datatype Line = Line(value: real, symbol: Symbol, amount: real)

  /** The ordered display rows and the two totals. */
  datatype Valuation = Valuation(lines: seq<Line>, total: real, historicalTotal: real)

  /** How the block aborts: a nil rate (an exception in the source), or no row
      left after the drop (the source's transpose yields nothing to zip). */
  datatype ValuationError = MissingRate(symbol: Symbol) | NothingValued

  function LineValue(l: Line): real
  {
    l.value
  }

  /** `result.map(&:first)` (gainz.rb:305). */
  function Symbols(rows: seq<Holding>): (r: seq<Symbol>)
    ensures |r| == |rows| && forall i :: 0 <= i < |rows| ==> r[i] == rows[i].symbol
  {
    if |rows| == 0 then [] else [rows[0].symbol] + Symbols(rows[1..])
  }

  /** The change shown for one symbol (gainz.rb:314-323): 0 when its historical
      rate is 0, the percent change otherwise; a missing rate that gets read aborts. */
  function SymbolChange(current: Rates, historical: Rates, symbol: Symbol): (r: Result<real, ValuationError>)
    ensures r.Success? <==> symbol in historical && (historical[symbol] != 0.0 ==> symbol in current)
    ensures r.Failure? ==> r.error == MissingRate(symbol)
    ensures r.Success? && historical[symbol] == 0.0 ==> r.value == 0.0
    ensures r.Success? && historical[symbol] != 0.0 ==>
              r.value * historical[symbol] == (current[symbol] - historical[symbol]) * 100.0
    ensures r.Success? && historical[symbol] > 0.0 ==>
              (r.value > 0.0 <==> current[symbol] > historical[symbol])
  {
    if symbol !in historical then Failure(MissingRate(symbol))
    else if historical[symbol] == 0.0 then Success(0.0)
    else if symbol !in current then Failure(MissingRate(symbol))
    else Success(PercentChange(current[symbol], historical[symbol]))
  }

  /** The `changes` hash (gainz.rb:313-325): one entry per distinct symbol. */
  function Changes(symbols: seq<Symbol>, current: Rates, historical: Rates): (r: Result<map<Symbol, real>, ValuationError>)
    ensures r.Success? ==> r.value.Keys == (set s | s in symbols)
    ensures r.Success? ==> forall s :: s in r.value ==> SymbolChange(current, historical, s) == Success(r.value[s])
    ensures r.Failure? ==> exists i :: 0 <= i < |symbols| && SymbolChange(current, historical, symbols[i]).Failure?
    ensures r.Failure? ==> r.error.MissingRate?
  {
    if |symbols| == 0 then Success(map[])
    else
      match SymbolChange(current, historical, symbols[0])
      case Failure(e) => Failure(e)
      case Success(c) =>
        match Changes(symbols[1..], current, historical)
        case Failure(e) =>
          assert forall i :: 0 <= i < |symbols| - 1 ==> symbols[1..][i] == symbols[i + 1];
          Failure(e)
        case Success(rest) =>
          assert symbols == [symbols[0]] + symbols[1..];
          Success(rest[symbols[0] := c])
  }

  /** Every row's symbol has both rates. */
  predicate Resolved(rows: seq<Holding>, current: Rates, historical: Rates)
  {
    Priced(rows, current) && Priced(rows, historical)
  }

  /** `raw_holdings` (gainz.rb:327-332): the pair of values of each row; the
      first row with a missing rate aborts. */
  function RawValues(rows: seq<Holding>, current: Rates, historical: Rates): (r: Result<seq<(real, real)>, ValuationError>)
    ensures r.Success? <==> Resolved(rows, current, historical)
    ensures r.Failure? ==> r.error.MissingRate?
    ensures r.Success? ==> |r.value| == |rows|
    ensures r.Success? ==> forall i :: 0 <= i < |rows| ==>
              r.value[i] == (Value(current, rows[i]), Value(historical, rows[i]))
  {
    if |rows| == 0 then Success([])
    else if rows[0].symbol !in current || rows[0].symbol !in historical then Failure(MissingRate(rows[0].symbol))
    else
      match RawValues(rows[1..], current, historical)
      case Failure(e) =>
        assert !Resolved(rows[1..], current, historical);
        Failure(e)
      case Success(rest) =>
        assert forall i :: 1 <= i < |rows| ==> rows[1..][i - 1] == rows[i];
        Success([(Value(current, rows[0]), Value(historical, rows[0]))] + rest)
  }

  /** `.reject { |_, historical| historical.zero? }` (gainz.rb:335) on the value pairs. */
  function KeepNonZero(pairs: seq<(real, real)>): (r: seq<(real, real)>)
    ensures |r| <= |pairs|
    ensures forall p :: p in r <==> p in pairs && p.1 != 0.0
    ensures forall p {:trigger multiset(r)[p]} :: multiset(r)[p] == if p.1 != 0.0 then multiset(pairs)[p] else 0
  {
    if |pairs| == 0 then []
    else
      assert pairs == [pairs[0]] + pairs[1..];
      if pairs[0].1 == 0.0 then KeepNonZero(pairs[1..])
      else [pairs[0]] + KeepNonZero(pairs[1..])
  }

  /** The rows whose historical value is non-zero, in order. */
  function Valued(rows: seq<Holding>, current: Rates, historical: Rates): (r: seq<Holding>)
    requires Resolved(rows, current, historical)
    ensures Resolved(r, current, historical)
    ensures |r| <= |rows|
    ensures forall h :: h in r <==> h in rows && Value(historical, h) != 0.0
    ensures forall h {:trigger multiset(r)[h]} :: multiset(r)[h] == if h.symbol in historical && Value(historical, h) != 0.0 then multiset(rows)[h] else 0
  {
    if |rows| == 0 then []
    else
      var rest := Valued(rows[1..], current, historical);
      assert rows == [rows[0]] + rows[1..];
      assert multiset(rows) == multiset{rows[0]} + multiset(rows[1..]);
      if Value(historical, rows[0]) == 0.0 then rest
      else
        assert multiset([rows[0]] + rest) == multiset{rows[0]} + multiset(rest);
        [rows[0]] + rest
  }

  /** The display row of a holding, labelled with its own symbol. */
  function LinesOf(current: Rates, rows: seq<Holding>): (r: seq<Line>)
    requires Priced(rows, current)
    ensures |r| == |rows|
    ensures forall i :: 0 <= i < |rows| ==> r[i] == Line(Value(current, rows[i]), rows[i].symbol, rows[i].amount)
  {
    if |rows| == 0 then [] else [Line(Value(current, rows[0]), rows[0].symbol, rows[0].amount)] + LinesOf(current, rows[1..])
  }

  /** `pairs` holds the value pair of each row of `rows`, in order. */
  predicate PairsOf(pairs: seq<(real, real)>, rows: seq<Holding>, current: Rates, historical: Rates)
    requires Resolved(rows, current, historical)
  {
    |pairs| == |rows| && forall i :: 0 <= i < |rows| ==> pairs[i] == (Value(current, rows[i]), Value(historical, rows[i]))
  }

  lemma PairsOfCons(p: (real, real), pairs: seq<(real, real)>, h: Holding, rows: seq<Holding>, current: Rates, historical: Rates)
    requires h.symbol in current && h.symbol in historical
    requires Resolved([h] + rows, current, historical) && Resolved(rows, current, historical)
    requires PairsOf(pairs, rows, current, historical)
    requires p == (Value(current, h), Value(historical, h))
    ensures PairsOf([p] + pairs, [h] + rows, current, historical)
  {
    var rows' := [h] + rows;
    var pairs' := [p] + pairs;
    forall i | 0 <= i < |rows'| ensures pairs'[i] == (Value(current, rows'[i]), Value(historical, rows'[i])) {
      if i > 0 {
        assert pairs'[i] == pairs[i - 1] && rows'[i] == rows[i - 1];
      }
    }
  }

  /** The value pairs of the kept rows are exactly the pairs of the valued rows. */
  lemma {:induction false} KeptPairsAreValuedRows(rows: seq<Holding>, current: Rates, historical: Rates)
    requires Resolved(rows, current, historical)
    ensures PairsOf(KeepNonZero(RawValues(rows, current, historical).value), Valued(rows, current, historical), current, historical)
  {
    if |rows| > 0 {
      var raw := RawValues(rows, current, historical).value;
      assert Resolved(rows[1..], current, historical);
      KeptPairsAreValuedRows(rows[1..], current, historical);
      var rest := RawValues(rows[1..], current, historical).value;
      assert raw == [raw[0]] + rest;
      var keptRest := KeepNonZero(rest);
      var valuedRest := Valued(rows[1..], current, historical);
      if Value(historical, rows[0]) == 0.0 {
        assert KeepNonZero(raw) == keptRest;
      } else {
        assert KeepNonZero(raw) == [raw[0]] + keptRest;
        assert Valued(rows, current, historical) == [rows[0]] + valuedRest;
        PairsOfCons(raw[0], keptRest, rows[0], valuedRest, current, historical);
      }
    }
  }

  /** The current and the historical value of a `[current, historical]` pair. */
  function CurrentPart(p: (real, real)): real
  {
    p.0
  }

  function HistoricalPart(p: (real, real)): real
  {
    p.1
  }

  /** Summing the columns of the valued rows' pairs is taking their worth. */
  lemma {:induction false} ColumnSums(pairs: seq<(real, real)>, valued: seq<Holding>, current: Rates, historical: Rates)
    requires Resolved(valued, current, historical)
    requires |pairs| == |valued|
    requires forall i :: 0 <= i < |pairs| ==> pairs[i] == (Value(current, valued[i]), Value(historical, valued[i]))
    ensures SumOf(pairs, CurrentPart) == Worth(current, valued)
    ensures SumOf(pairs, HistoricalPart) == Worth(historical, valued)
  {
    if |pairs| > 0 {
      ColumnSums(pairs[1..], valued[1..], current, historical);
    }
  }

  /** The lines sum to the worth of their rows. */
  lemma {:induction false} LinesSum(current: Rates, rows: seq<Holding>)
    requires Priced(rows, current)
    ensures SumOf(LinesOf(current, rows), LineValue) == Worth(current, rows)
  {
    if |rows| > 0 {
      LinesSum(current, rows[1..]);
      assert LinesOf(current, rows)[1..] == LinesOf(current, rows[1..]);
    }
  }

  /** `holdings.first.zip(result)` (gainz.rb:340-343): the i-th kept value
      is shown against the i-th row of `result`, dropped rows included. */
  function ZipWithRows(kept: seq<(real, real)>, rows: seq<Holding>): seq<Line>
    requires |kept| <= |rows|
  {
    seq(|kept|, i requires 0 <= i < |kept| => Line(kept[i].0, rows[i].symbol, rows[i].amount))
  }

  /** The valuation block as it is written: the kept values are zipped
      against the rows of `result` position by position, although `result`
      still holds the dropped rows. */
  function ValuePortfolioAsWritten(rows: seq<Holding>, current: Rates, historical: Rates): (r: Result<Valuation, ValuationError>)
    ensures r.Success? <==> Resolved(rows, current, historical) && |Valued(rows, current, historical)| > 0
    ensures r.Success? ==> Descending(r.value.lines, LineValue)
    ensures r.Success? ==>
              multiset(r.value.lines) == multiset(ZipWithRows(KeepNonZero(RawValues(rows, current, historical).value), rows))
    ensures r.Success? ==> r.value.total == Worth(current, Valued(rows, current, historical))
    ensures r.Success? ==> r.value.historicalTotal == Worth(historical, Valued(rows, current, historical))
  {
    match RawValues(rows, current, historical)
    case Failure(e) => Failure(e)
    case Success(raw) =>
      var kept := KeepNonZero(raw);
      KeptPairsAreValuedRows(rows, current, historical);
      if |kept| == 0 then Failure(NothingValued)
      else
        ColumnSums(kept, Valued(rows, current, historical), current, historical);
        Success(Valuation(SortDescending(ZipWithRows(kept, rows), LineValue), SumOf(kept, CurrentPart), SumOf(kept, HistoricalPart)))
  }

  /** The valuation block with each value kept together with its own row: the
      labelling the block evidently intends. */
  function ValuePortfolio(rows: seq<Holding>, current: Rates, historical: Rates): (r: Result<Valuation, ValuationError>)
    ensures r.Success? <==> Resolved(rows, current, historical) && |Valued(rows, current, historical)| > 0
    ensures !Resolved(rows, current, historical) ==> r.Failure? && r.error.MissingRate?
    ensures Resolved(rows, current, historical) && r.Failure? ==> r.error == NothingValued
    ensures r.Success? ==> Descending(r.value.lines, LineValue)
    ensures r.Success? ==> multiset(r.value.lines) == multiset(LinesOf(current, Valued(rows, current, historical)))
    ensures r.Success? ==> r.value.total == SumOf(r.value.lines, LineValue)
    ensures r.Success? ==> r.value.historicalTotal == Worth(historical, Valued(rows, current, historical))
  {
    if !Resolved(rows, current, historical) then
      RawValues(rows, current, historical).PropagateFailure()
    else
      var valued := Valued(rows, current, historical);
      if |valued| == 0 then Failure(NothingValued)
      else
        var lines := LinesOf(current, valued);
        LinesSum(current, valued);
        SortSum(lines, LineValue, LineValue);
        Success(Valuation(SortDescending(lines, LineValue), Worth(current, valued), Worth(historical, valued)))
  }

  lemma {:induction false} InLinesOf(current: Rates, rows: seq<Holding>, l: Line)
    requires Priced(rows, current)
    requires l in LinesOf(current, rows)
    ensures Holding(l.symbol, l.amount) in rows && l.symbol in current && l.value == current[l.symbol] * l.amount
  {
    var lines := LinesOf(current, rows);
    var i :| 0 <= i < |lines| && lines[i] == l;
    var h := rows[i];
    assert h == Holding(l.symbol, l.amount) && h.symbol in current;
    LineValueOfHolding(current, h, l);
  }

  lemma LineValueOfHolding(current: Rates, h: Holding, l: Line)
    requires h.symbol in current && l == Line(Value(current, h), h.symbol, h.amount)
    ensures l.value == current[l.symbol] * l.amount
  {
  }

  lemma LineOfValuedRow(l: Line, rows: seq<Holding>, current: Rates, historical: Rates)
    requires Resolved(rows, current, historical)
    requires l in LinesOf(current, Valued(rows, current, historical))
    ensures Holding(l.symbol, l.amount) in rows && l.symbol in current && l.symbol in historical
    ensures l.value == current[l.symbol] * l.amount && historical[l.symbol] * l.amount != 0.0
  {
    var valued := Valued(rows, current, historical);
    InLinesOf(current, valued, l);
    var h := Holding(l.symbol, l.amount);
    assert h in valued;
    ValuedRow(h, rows, current, historical);
  }

  lemma ValuedRow(h: Holding, rows: seq<Holding>, current: Rates, historical: Rates)
    requires Resolved(rows, current, historical)
    requires h in Valued(rows, current, historical)
    ensures h in rows && h.symbol in historical && historical[h.symbol] * h.amount != 0.0
  {
  }

  /** Every displayed line is a kept holding shown with its own current value. */
  lemma LinesAreValuedHoldings(rows: seq<Holding>, current: Rates, historical: Rates)
    requires ValuePortfolio(rows, current, historical).Success?
    ensures var lines := ValuePortfolio(rows, current, historical).value.lines;
            forall l :: l in lines ==>
              && Holding(l.symbol, l.amount) in rows
              && l.symbol in current && l.symbol in historical
              && l.value == current[l.symbol] * l.amount
              && historical[l.symbol] * l.amount != 0.0
  {
    var lines := ValuePortfolio(rows, current, historical).value.lines;
    forall l | l in lines
      ensures Holding(l.symbol, l.amount) in rows && l.symbol in current && l.symbol in historical
      ensures l.value == current[l.symbol] * l.amount && historical[l.symbol] * l.amount != 0.0
    {
      assert l in multiset(lines);
      assert l in multiset(LinesOf(current, Valued(rows, current, historical)));
      LineOfValuedRow(l, rows, current, historical);
    }
  }

  /** With the amounts the holdings table keeps and non-negative rates, the
      historical total is positive, so the total change (gainz.rb:346) divides
      by a non-zero baseline. */
  lemma HistoricalTotalPositive(rows: seq<Holding>, current: Rates, historical: Rates)
    requires PositiveAmounts(rows) && NonNegative(historical)
    requires ValuePortfolio(rows, current, historical).Success?
    ensures ValuePortfolio(rows, current, historical).value.historicalTotal > 0.0
  {
    var valued := Valued(rows, current, historical);
    assert valued[0] in valued;
    assert PositiveAmounts(valued) by {
      forall i | 0 <= i < |valued| ensures valued[i].amount > 0.0 {
        assert valued[i] in valued;
        var j :| 0 <= j < |rows| && rows[j] == valued[i];
      }
    }
    WorthPositive(historical, valued, 0);
  }

  lemma BaselineWhenPositive(rows: seq<Holding>, current: Rates, historical: Rates)
    requires ValuePortfolio(rows, current, historical).Success?
    ensures PositiveAmounts(rows) && NonNegative(historical) ==>
              ValuePortfolio(rows, current, historical).value.historicalTotal > 0.0
  {
    if PositiveAmounts(rows) && NonNegative(historical) {
      HistoricalTotalPositive(rows, current, historical);
    }
  }

  /** Two holdings, one without a historical rate: only the other one is
      valued, and the totals are its current and historical values. */
  lemma DropExample()
    ensures var r := ValuePortfolio([Holding("BTC", 1.0), Holding("XYZ", 1.0)],
                                    map["BTC" := 100.0, "XYZ" := 5.0], map["BTC" := 80.0, "XYZ" := 0.0]);
            && r.Success?
            && r.value.lines == [Line(100.0, "BTC", 1.0)]
            && r.value.total == 100.0
            && r.value.historicalTotal == 80.0
  {
    var rows := [Holding("BTC", 1.0), Holding("XYZ", 1.0)];
    var current := map["BTC" := 100.0, "XYZ" := 5.0];
    var historical := map["BTC" := 80.0, "XYZ" := 0.0];
    assert rows[1..] == [Holding("XYZ", 1.0)];
    assert Valued(rows, current, historical) == [Holding("BTC", 1.0)];
    assert LinesOf(current, [Holding("BTC", 1.0)]) == [Line(100.0, "BTC", 1.0)];
  }

  /** When no row is dropped, the positional zip pairs every value with its
      own row, and the block as written agrees with the intended one. */
  lemma AsWrittenAgreesWhenNothingDropped(rows: seq<Holding>, current: Rates, historical: Rates)
    requires Resolved(rows, current, historical)
    requires forall i :: 0 <= i < |rows| ==> Value(historical, rows[i]) != 0.0
    ensures ValuePortfolioAsWritten(rows, current, historical) == ValuePortfolio(rows, current, historical)
  {
    AllValued(rows, current, historical);
    var raw := RawValues(rows, current, historical).value;
    KeptPairsAreValuedRows(rows, current, historical);
    var kept := KeepNonZero(raw);
    if |rows| > 0 {
      ColumnSums(kept, rows, current, historical);
      ZipOwnRows(kept, rows, current, historical);
    }
  }

  /** Zipping each row's own value pair against the rows labels every value correctly. */
  lemma ZipOwnRows(kept: seq<(real, real)>, rows: seq<Holding>, current: Rates, historical: Rates)
    requires Resolved(rows, current, historical)
    requires PairsOf(kept, rows, current, historical)
    ensures ZipWithRows(kept, rows) == LinesOf(current, rows)
  {
  }

  lemma {:induction false} AllValued(rows: seq<Holding>, current: Rates, historical: Rates)
    requires Resolved(rows, current, historical)
    requires forall i :: 0 <= i < |rows| ==> Value(historical, rows[i]) != 0.0
    ensures Valued(rows, current, historical) == rows
  {
    if |rows| > 0 {
      AllValued(rows[1..], current, historical);
    }
  }

  /** The zip mislabels as soon as a row before a kept one is dropped: the
      value of BTC is shown against XYZ, whose own value is 5. */
  lemma AsWrittenMislabels()
    ensures var rows := [Holding("XYZ", 1.0), Holding("BTC", 1.0)];
            var current := map["BTC" := 100.0, "XYZ" := 5.0];
            var historical := map["BTC" := 80.0, "XYZ" := 0.0];
            && ValuePortfolioAsWritten(rows, current, historical) == Success(Valuation([Line(100.0, "XYZ", 1.0)], 100.0, 80.0))
            && ValuePortfolio(rows, current, historical) == Success(Valuation([Line(100.0, "BTC", 1.0)], 100.0, 80.0))
  {
    var rows := [Holding("XYZ", 1.0), Holding("BTC", 1.0)];
    var current := map["BTC" := 100.0, "XYZ" := 5.0];
    var historical := map["BTC" := 80.0, "XYZ" := 0.0];
    assert rows[1..] == [Holding("BTC", 1.0)];
    var raw := RawValues(rows, current, historical).value;
    assert raw == [(5.0, 0.0), (100.0, 80.0)];
    assert raw[1..] == [(100.0, 80.0)];
    assert KeepNonZero(raw) == [(100.0, 80.0)];
    assert ZipWithRows([(100.0, 80.0)], rows) == [Line(100.0, "XYZ", 1.0)];
    assert Valued(rows, current, historical) == [Holding("BTC", 1.0)];
    assert LinesOf(current, [Holding("BTC", 1.0)]) == [Line(100.0, "BTC", 1.0)];
  }

  /** How the portfolio command fails. */
  datatype ReportError = QuoteFailed(quote: QuoteError) | ValuationFailed(valuation: ValuationError)

  /** What the portfolio command prints, before formatting. */
  datatype Report = Report(changes: map<Symbol, real>, valuation: Valuation, totalChange: Option<real>)

  lemma SymbolsOfRows(rows: seq<Holding>)
    ensures (set s | s in Symbols(rows)) == (set h | h in rows :: h.symbol)
  {
    var symbols := Symbols(rows);
    forall h | h in rows ensures h.symbol in symbols {
      var i :| 0 <= i < |rows| && rows[i] == h;
      assert symbols[i] == h.symbol;
    }
  }

  /** When every row's symbol has both rates, every per-symbol change exists. */
  lemma ResolvedChangesSucceed(rows: seq<Holding>, current: Rates, historical: Rates)
    ensures Resolved(rows, current, historical) ==> Changes(Symbols(rows), current, historical).Success?
  {
  }

  /** The valuation block given the two conversion maps (gainz.rb:313-346). */
  function ValuationReport(rows: seq<Holding>, current: Rates, historical: Rates): (r: Result<Report, ValuationError>)
    ensures r.Success? <==> Resolved(rows, current, historical) && |Valued(rows, current, historical)| > 0
    ensures !Resolved(rows, current, historical) ==> r.Failure? && r.error.MissingRate?
    ensures Resolved(rows, current, historical) && r.Failure? ==> r.error == NothingValued
    ensures r.Success? ==> r.value.changes.Keys == (set h | h in rows :: h.symbol)
    ensures r.Success? ==> forall s :: s in r.value.changes ==> SymbolChange(current, historical, s) == Success(r.value.changes[s])
    ensures r.Success? ==> r.value.valuation == ValuePortfolio(rows, current, historical).value
    ensures r.Success? ==> r.value.totalChange == TotalChange(r.value.valuation.total, r.value.valuation.historicalTotal)
    ensures r.Success? && PositiveAmounts(rows) && NonNegative(historical) ==>
              && r.value.valuation.historicalTotal > 0.0
              && r.value.totalChange.Some?
  {
    var symbols := Symbols(rows);
    ResolvedChangesSucceed(rows, current, historical);
    match Changes(symbols, current, historical)
    case Failure(e) => Failure(e)
    case Success(changes) =>
      match ValuePortfolio(rows, current, historical)
      case Failure(e) => Failure(e)
      case Success(v) =>
        SymbolsOfRows(rows);
        BaselineWhenPositive(rows, current, historical);
        Success(Report(changes, v, TotalChange(v.total, v.historicalTotal)))
  }

  /** The portfolio command from the fetched rows on (gainz.rb:305-346):
      unfiltered conversions for the user's symbols, then the valuation block. */
  function PortfolioReport(service: Request -> Json, now: int, rows: seq<Holding>, to: string, duration: Duration)
    : (r: Result<Report, ReportError>)
    ensures var c := GetConversions(service, now, Symbols(rows), to, duration, false);
            && (c.Failure? ==> r == Failure(QuoteFailed(c.error)))
            && (c.Success? ==>
                  var v := ValuationReport(rows, c.value.current, c.value.historical);
                  r == if v.Success? then Success(v.value) else Failure(ValuationFailed(v.error)))
            && (c.Success? && !Resolved(rows, c.value.current, c.value.historical) ==>
                  r.Failure? && r.error.ValuationFailed? && r.error.valuation.MissingRate?)
            && (r.Success? && PositiveAmounts(rows) ==>
                  r.value.valuation.historicalTotal > 0.0 && r.value.totalChange.Some?)
  {
    match GetConversions(service, now, Symbols(rows), to, duration, false)
    case Failure(e) => Failure(QuoteFailed(e))
    case Success(c) =>
      match ValuationReport(rows, c.current, c.historical)
      case Failure(e) => Failure(ValuationFailed(e))
      case Success(report) => Success(report)
  }
}

=== FILE: quotes.dfy ===
/** One quote request (`to_timestamp`, `get_api_url` and `convert`,
    gainz.rb:84-108). The HTTP fetch and the JSON parser are not modelled:
    the quote service is a function from the request to the parsed JSON body. */
module Quotes {
  import opened Wrappers
  import opened Text

  /** A crypto symbol (or currency code) as it appears in requests and responses. */
  type Symbol = string

  /** A conversion map: the price of one unit of each symbol in the target currency. */
  type Rates = map<Symbol, real>

  const ApiPathDefault: string := "price"
  const ApiPathHistorical: string := "pricehistorical"
  const ApiRoot: string := "https://min-api.cryptocompare.com/data/"

  const SecondsHour: nat := 60 * 60
  const SecondsDay: nat := SecondsHour * 24
  const SecondsWeek: nat := SecondsDay * 7
  const SecondsMonth: nat := SecondsDay * 30
  const SecondsYear: nat := SecondsDay * 365

  /** The look-back windows the command line accepts. */
  datatype Duration = Hour | Day | Week | Month | Year

  /** `TIMESTAMP_CONVERSIONS`: fixed second counts, not calendar arithmetic. */
  function Seconds(d: Duration): nat
  {
    match d
    case Hour => SecondsHour
    case Day => SecondsDay
    case Week => SecondsWeek
    case Month => SecondsMonth
    case Year => SecondsYear
  }

  /** `to_timestamp`: the instant `duration` before `now`, or none in current mode. */
  function ToTimestamp(duration: Option<Duration>, now: int): (r: Option<int>)
    ensures r.Some? <==> duration.Some?
    ensures r.Some? ==> r.value <= now - SecondsHour && (now - r.value) % SecondsHour == 0
    ensures duration == Some(Hour) ==> r == Some(now - 3600)
    ensures duration == Some(Day) ==> r == Some(now - 86400)
    ensures duration == Some(Week) ==> r == Some(now - 604800)
    ensures duration == Some(Month) ==> r == Some(now - 2592000)
    ensures duration == Some(Year) ==> r == Some(now - 31536000)
  {
    match duration
    case None => None
    case Some(d) => Some(now - Seconds(d))
  }

  /** A query parameter value before form encoding. */
  datatype ParamValue = StringParam(s: string) | IntParam(i: int)

  /** A request before it is rendered as a URL: the endpoint path and the
      query parameters in order. */
  datatype Request = Request(path: string, params: seq<(string, ParamValue)>)

  /** The value of the first parameter named `key`. */
  function Lookup(params: seq<(string, ParamValue)>, key: string): (r: Option<ParamValue>)
    ensures r.Some? <==> exists i :: 0 <= i < |params| && params[i].0 == key
  {
    if |params| == 0 then None
    else if params[0].0 == key then Some(params[0].1)
    else Lookup(params[1..], key)
  }

  lemma LookupCons(p: (string, ParamValue), rest: seq<(string, ParamValue)>, key: string)
    ensures Lookup([p] + rest, key) == if p.0 == key then Some(p.1) else Lookup(rest, key)
  {
    assert ([p] + rest)[1..] == rest;
  }

  lemma TimestampParam(ts: Option<int>)
    ensures ts.None? ==> Lookup([], "ts") == None
    ensures ts.Some? ==> Lookup([("ts", IntParam(ts.value))], "ts") == Some(IntParam(ts.value))
  {
    if ts.Some? {
      LookupCons(("ts", IntParam(ts.value)), [], "ts");
    }
  }

  /** The query of a request for `from`, in the source's parameter order. */
  function Params(from: seq<Symbol>, to: string, ts: Option<int>): (params: seq<(string, ParamValue)>)
    ensures Lookup(params, "fsym") == Some(StringParam(to))
    ensures Lookup(params, "tsyms") == Some(StringParam(Join(from, Comma)))
    ensures ts.None? ==> Lookup(params, "ts") == None
    ensures ts.Some? ==> Lookup(params, "ts") == Some(IntParam(ts.value))
    ensures |params| == if ts.Some? then 3 else 2
  {
    var tail := if ts.Some? then [("ts", IntParam(ts.value))] else [];
    var tsyms := ("tsyms", StringParam(Join(from, Comma)));
    LookupCons(tsyms, tail, "ts");
    LookupCons(tsyms, tail, "tsyms");
    LookupCons(("fsym", StringParam(to)), [tsyms] + tail, "ts");
    LookupCons(("fsym", StringParam(to)), [tsyms] + tail, "tsyms");
    LookupCons(("fsym", StringParam(to)), [tsyms] + tail, "fsym");
    TimestampParam(ts);
    [("fsym", StringParam(to))] + [tsyms] + tail
  }

  /** The request `get_api_url` renders (gainz.rb:88-94): the historical path
      exactly when a duration is given, the target currency as `fsym`, the
      comma-joined symbols as `tsyms`, and `ts` only when a duration is given. */
  function ApiRequest(from: seq<Symbol>, to: string, duration: Option<Duration>, now: int): (r: Request)
    ensures r.path == ApiPathHistorical <==> duration.Some?
    ensures r.path == ApiPathDefault <==> duration.None?
    ensures Lookup(r.params, "fsym") == Some(StringParam(to))
    ensures Lookup(r.params, "ts").Some? <==> duration.Some?
    ensures duration.Some? ==> Lookup(r.params, "ts") == Some(IntParam(now - Seconds(duration.value)))
    ensures Lookup(r.params, "tsyms") == Some(StringParam(Join(from, Comma)))
    ensures |r.params| == if duration.Some? then 3 else 2
  {
    var path := if duration.Some? then ApiPathHistorical else ApiPathDefault;
    Request(path, Params(from, to, ToTimestamp(duration, now)))
  }

  /** The `tsyms` parameter reads back, split at commas, as the symbol list it was built from. */
  lemma RequestListsSymbols(from: seq<Symbol>, to: string, duration: Option<Duration>, now: int)
    requires |from| > 0
    requires SeparatorFree(from, Comma)
    ensures match Lookup(ApiRequest(from, to, duration, now).params, "tsyms")
            case Some(StringParam(t)) => Split(t, Comma) == from
            case _ => false
  {
    SplitJoin(from, Comma);
  }

  /** The URL string (gainz.rb:95); `encode` stands for `URI.encode_www_form`. */
  function Url(encode: seq<(string, ParamValue)> -> string, r: Request): (u: string)
    ensures ApiRoot + r.path + "?" <= u
  {
    ApiRoot + r.path + "?" + encode(r.params)
  }

  /** The parsed JSON body of a quote response. Arrays, strings, booleans and
      null are all `Other`, which is never read as a price table. */
  datatype Json = Number(n: real) | Object(fields: map<string, Json>) | Other

  /** How a quote request can abort the command. */
  datatype QuoteError =
    | NotAnObject       // the body, or the table under the currency, is not a JSON object
    | MissingCurrency   // historical mode and the body has no key for the target currency
    | NonNumericPrice   // some price is not a number, so `price > 0` raises

  /** All rates are non-negative. */
  predicate NonNegative(rates: Rates)
  {
    forall s :: s in rates ==> rates[s] >= 0.0
  }

  /** The inversion step of `convert` (gainz.rb:104): the service quotes the
      target currency per symbol, so a positive quote is inverted and anything
      else becomes the sentinel 0. */
  function Invert(price: real): (r: real)
    ensures r >= 0.0
    ensures price > 0.0 ==> r > 0.0 && r * price == 1.0
    ensures price <= 0.0 ==> r == 0.0
  {
    if price > 0.0 then 1.0 / price else 0.0
  }

  lemma InvertExamples()
    ensures Invert(2.0) == 0.5
    ensures Invert(0.0) == 0.0
    ensures Invert(-1.0) == 0.0
  {
  }

  /** `data = duration ? json[to] : json` (gainz.rb:102), with the crashes of
      the source as failures. */
  function QuoteData(json: Json, to: string, historical: bool): (r: Result<map<string, Json>, QuoteError>)
    ensures !historical ==> (r.Success? <==> json.Object?)
    ensures historical ==>
              (r.Success? <==> json.Object? && to in json.fields && json.fields[to].Object?)
    ensures historical && json.Object? && to !in json.fields ==> r == Failure(MissingCurrency)
    ensures r.Success? && !historical ==> r.value == json.fields
    ensures r.Success? && historical ==> r.value == json.fields[to].fields
  {
    if !json.Object? then Failure(NotAnObject)
    else if !historical then Success(json.fields)
    else if to !in json.fields then Failure(MissingCurrency)
    else if !json.fields[to].Object? then Failure(NotAnObject)
    else Success(json.fields[to].fields)
  }

  /** The mapping step of `convert` (gainz.rb:103-107): every entry of the data
      is kept, under its own symbol, with its quote inverted. */
  function ResolveRates(data: map<string, Json>): (r: Result<Rates, QuoteError>)
    ensures r.Success? <==> forall s :: s in data ==> data[s].Number?
    ensures r.Success? ==> r.value.Keys == data.Keys && NonNegative(r.value)
    ensures r.Success? ==> forall s :: s in r.value ==>
              (data[s].n > 0.0 ==> r.value[s] * data[s].n == 1.0) && (data[s].n <= 0.0 ==> r.value[s] == 0.0)
  {
    if forall s :: s in data ==> data[s].Number? then
      Success(map s | s in data :: Invert(data[s].n))
    else
      Failure(NonNumericPrice)
  }

  /** `convert(from, to, duration)`: one request, one conversion map. */
  function Convert(service: Request -> Json, now: int, from: seq<Symbol>, to: string, duration: Option<Duration>)
    : (r: Result<Rates, QuoteError>)
    ensures var data := QuoteData(service(ApiRequest(from, to, duration, now)), to, duration.Some?);
            && (r.Success? <==> data.Success? && forall s :: s in data.value ==> data.value[s].Number?)
            && (r.Success? ==> r.value.Keys == data.value.Keys && NonNegative(r.value))
            && (r.Success? ==> forall s :: s in r.value ==> r.value[s] == Invert(data.value[s].n))
  {
    var json := service(ApiRequest(from, to, duration, now));
    var data :- QuoteData(json, to, duration.Some?);
    ResolveRates(data)
  }
}

=== FILE: ranking.dfy ===
/** Ordering by value, descending (`sort_by { -value }`), and sums over
    sequences. Ruby's `sort_by` is not stable, so nothing is promised about
    the order of equal values: only that the result is a rearrangement of the
    input whose values never increase. */
module Ranking {

  /** Values never increase along the sequence. */
  ghost predicate Descending<T>(xs: seq<T>, key: T -> real)
  {
    forall i, j :: 0 <= i < j < |xs| ==> key(xs[i]) >= key(xs[j])
  }

  function Insert<T>(x: T, xs: seq<T>, key: T -> real): (r: seq<T>)
    requires Descending(xs, key)
    ensures Descending(r, key)
    ensures multiset(r) == multiset(xs) + multiset{x}
    ensures r[0] == x || (|xs| > 0 && r[0] == xs[0])
  {
    if |xs| == 0 then [x]
    else if key(x) >= key(xs[0]) then [x] + xs
    else
      var rest := Insert(x, xs[1..], key);
      assert xs == [xs[0]] + xs[1..];
      [xs[0]] + rest
  }

  /** `sort_by { |item| -key(item) }`: a rearrangement with non-increasing keys. */
  function SortDescending<T>(xs: seq<T>, key: T -> real): (r: seq<T>)
    ensures Descending(r, key)
    ensures multiset(r) == multiset(xs)
  {
    if |xs| == 0 then []
    else
      assert xs == [xs[0]] + xs[1..];
      Insert(xs[0], SortDescending(xs[1..], key), key)
  }

  /** The sum of `f` over the sequence. */
  function SumOf<T>(xs: seq<T>, f: T -> real): real
  {
    if |xs| == 0 then 0.0 else f(xs[0]) + SumOf(xs[1..], f)
  }

  lemma {:induction false} InsertSum<T>(x: T, xs: seq<T>, key: T -> real, f: T -> real)
    requires Descending(xs, key)
    ensures SumOf(Insert(x, xs, key), f) == f(x) + SumOf(xs, f)
  {
    if |xs| > 0 && key(x) < key(xs[0]) {
      InsertSum(x, xs[1..], key, f);
      var r := Insert(x, xs, key);
      assert r[1..] == Insert(x, xs[1..], key);
    } else if |xs| > 0 {
      assert ([x] + xs)[1..] == xs;
    }
  }

  /** Sorting changes no sum. */
  lemma {:induction false} SortSum<T>(xs: seq<T>, key: T -> real, f: T -> real)
    ensures SumOf(SortDescending(xs, key), f) == SumOf(xs, f)
  {
    if |xs| > 0 {
      SortSum(xs[1..], key, f);
      InsertSum(xs[0], SortDescending(xs[1..], key), key, f);
    }
  }

  /** Every element of a sorted sequence is an element of the input. */
  lemma SortMembers<T>(xs: seq<T>, key: T -> real)
    ensures forall i :: 0 <= i < |SortDescending(xs, key)| ==> SortDescending(xs, key)[i] in xs
    ensures |SortDescending(xs, key)| == |xs|
  {
    var r := SortDescending(xs, key);
    assert |multiset(r)| == |multiset(xs)|;
    forall i | 0 <= i < |r| ensures r[i] in xs {
      assert r[i] in multiset(r);
    }
  }

  /** No element occurs twice. */
  ghost predicate Distinct<T>(xs: seq<T>)
  {
    forall i, j :: 0 <= i < j < |xs| ==> xs[i] != xs[j]
  }

  lemma {:induction false} InsertDistinct<T>(x: T, xs: seq<T>, key: T -> real)
    requires Descending(xs, key) && Distinct(xs) && x !in xs
    ensures Distinct(Insert(x, xs, key))
  {
    if |xs| > 0 && key(x) < key(xs[0]) {
      assert x !in xs[1..];
      InsertDistinct(x, xs[1..], key);
      var rest := Insert(x, xs[1..], key);
      assert xs[0] !in xs[1..];
      assert xs[0] !in multiset(rest);
    }
  }

  /** Sorting a sequence without repetitions yields one without repetitions. */
  lemma {:induction false} SortDistinct<T>(xs: seq<T>, key: T -> real)
    requires Distinct(xs)
    ensures Distinct(SortDescending(xs, key))
  {
    if |xs| > 0 {
      SortDistinct(xs[1..], key);
      var sorted := SortDescending(xs[1..], key);
      assert xs[0] !in xs[1..];
      assert xs[0] !in multiset(sorted);
      InsertDistinct(xs[0], sorted, key);
    }
  }
}

=== FILE: text.dfy ===
/** Joining a symbol list with a separator (Ruby's `Array#join`), and the
    splitting that reads such a list back. */
module Text {

  const Comma: char := ','

  /** Sum of the lengths of the parts. */
  function TotalLength(parts: seq<string>): nat
  {
    if |parts| == 0 then 0 else TotalLength(parts[..|parts| - 1]) + |parts[|parts| - 1]|
  }

  /** `parts.join(sep)`: the parts in order with one separator between neighbours. */
  function Join(parts: seq<string>, sep: char): (r: string)
    ensures |parts| > 0 ==> |r| == TotalLength(parts) + |parts| - 1
    ensures |parts| == 0 ==> r == ""
  {
    if |parts| == 0 then ""
    else if |parts| == 1 then parts[0]
    else Join(parts[..|parts| - 1], sep) + [sep] + parts[|parts| - 1]
  }

  /** No part contains the separator. */
  predicate SeparatorFree(parts: seq<string>, sep: char)
  {
    forall i :: 0 <= i < |parts| ==> sep !in parts[i]
  }

  /** Splits at every separator, keeping empty fields; always at least one field. */
  function Split(s: string, sep: char): (r: seq<string>)
    ensures |r| >= 1
  {
    if |s| == 0 then [""]
    else
      var init := Split(s[..|s| - 1], sep);
      var c := s[|s| - 1];
      if c == sep then init + [""]
      else init[..|init| - 1] + [init[|init| - 1] + [c]]
  }

  /** A string without separators is a single field. */
  lemma {:induction false} SplitNoSeparator(s: string, sep: char)
    requires sep !in s
    ensures Split(s, sep) == [s]
  {
    if |s| > 0 {
      assert sep !in s[..|s| - 1];
      SplitNoSeparator(s[..|s| - 1], sep);
      assert s[..|s| - 1] + [s[|s| - 1]] == s;
    }
  }

  /** Appending a separator and a separator-free field adds exactly that field. */
  lemma {:induction false} SplitAppendField(a: string, sep: char, x: string)
    requires sep !in x
    ensures Split(a + [sep] + x, sep) == Split(a, sep) + [x]
  {
    if |x| == 0 {
      assert a + [sep] + x == a + [sep];
      assert (a + [sep])[..|a + [sep]| - 1] == a;
    } else {
      var x' := x[..|x| - 1];
      var c := x[|x| - 1];
      assert sep !in x';
      SplitAppendField(a, sep, x');
      var s := a + [sep] + x;
      assert s[..|s| - 1] == a + [sep] + x';
      assert s[|s| - 1] == c;
      assert x' + [c] == x;
    }
  }

  /** Splitting a join of separator-free parts gives the parts back. */
  lemma {:induction false} SplitJoin(parts: seq<string>, sep: char)
    requires |parts| > 0
    requires SeparatorFree(parts, sep)
    ensures Split(Join(parts, sep), sep) == parts
  {
    if |parts| == 1 {
      SplitNoSeparator(parts[0], sep);
    } else {
      var init := parts[..|parts| - 1];
      var last := parts[|parts| - 1];
      assert SeparatorFree(init, sep) by {
        forall i | 0 <= i < |init| ensures sep !in init[i] {
          assert init[i] == parts[i];
        }
      }
      SplitJoin(init, sep);
      assert sep !in last;
      SplitAppendField(Join(init, sep), sep, last);
      assert init + [last] == parts;
    }
  }

  /** Extending the last part by one character extends the join by that character. */
  lemma JoinExtendLast(parts: seq<string>, sep: char, c: char)
    requires |parts| > 0
    ensures Join(parts[..|parts| - 1] + [parts[|parts| - 1] + [c]], sep) == Join(parts, sep) + [c]
  {
    var r := parts[..|parts| - 1] + [parts[|parts| - 1] + [c]];
    if |parts| > 1 {
      assert r[..|r| - 1] == parts[..|parts| - 1];
    }
  }

  /** Joining the fields of a split gives the string back. */
  lemma {:induction false} JoinSplit(s: string, sep: char)
    ensures Join(Split(s, sep), sep) == s
  {
    if |s| > 0 {
      var s' := s[..|s| - 1];
      var c := s[|s| - 1];
      var init := Split(s', sep);
      JoinSplit(s', sep);
      assert s' + [c] == s;
      if c == sep {
        var r := init + [""];
        assert r[..|r| - 1] == init;
      } else {
        JoinExtendLast(init, sep, c);
      }
    }
  }
}

=== FILE: wrappers.dfy ===
/** Option and Result values shared by the valuation modules. A Ruby exception
    that aborts the command is modelled as a `Failure`. */
module Wrappers {

  datatype Option<+T> = None | Some(value: T)

  datatype Result<+T, +E> = Success(value: T) | Failure(error: E) {

    predicate IsFailure() {
      Failure?
    }

    function PropagateFailure<U>(): Result<U, E>
      requires Failure?
    {
      Failure(error)
    }

    function Extract(): T
      requires Success?
    {
      value
    }
  }
}
